=== FILE: README.md ===
# TokenShrinker core, modelled in Dafny

TokenShrinker keeps short AI-written summaries of the source files of a repository. It
compresses each large file through a chat-completion provider and stores the result as a
`summaries/<file>.summary.json` artifact. A hash cache (`summaries/_cache.json`) means that
unchanged files are never sent again. A watcher feeds changed files into this pipeline. An MCP
server answers JSON-RPC requests on stdin/stdout with three tools: `shrink`, `summarize` and
`fetch-summary`.

The project models six source files:

| module | file | what it models |
|---|---|---|
| `Js` | (shared) | JavaScript values as the core reads them: `undefined`, `null`, strings and other values, their truthiness, `||` and `${}` display |
| `Text` | (shared) | `split`, `join`, `trim` with the JavaScript whitespace set, ASCII `toLowerCase`, `startsWith`, `endsWith`, `includes`, decimal printing |
| `Cache` | `src/cache.js` | The cache file as a class `CacheStore` whose `Load` and `Save` methods change it. `safeFileName` |
| `Optimize` | `src/optimizeText.js` | Provider selection from the environment, client resolution, the token budget, the request built for the provider, the checks on the reply |
| `Summarizer` | `src/summarizer.js` | `summarizeFile` as the method `Workspace.SummarizeFile` over the source tree, the artifacts and the cache. The method is proved equal to the pure step `SummarizeStep`, and the pipeline's invariants are proved about that step |
| `RepoSummary` | `src/getRepoSummary.js` | The loop over the `summaries/` listing (`GetRepoSummary`), proved equal to the pure `RepoSummary` |
| `Watcher` | `src/watcher.js` | The class `ChangeWatcher` with its pending set and `busy` flag. The path filter and the batch loop |
| `McpServer` | `src/mcp-server.js` | The pure `HandleRequest`, the per-line handling, and the class `StdioServer` whose `OnData` method cuts the input stream into lines |

Some of the outside world becomes parameters:
- The environment is a `map<string, string>`.
- The chat provider is a function from the request to its reply. A reply is either a thrown error or a completion object.
- SHA-1 is an uninterpreted function `hash`.
- The file system is a set of maps: sources, artifacts and the cache file.
- `JSON.parse` is a function from a line to the parsed request.
- The clock readings are plain values.

Some properties the model brings out about the code as written:

- `Synced` says that every cache entry has an artifact and every artifact has an entry. In the sequential model, where every file write and removal succeeds, each call of `summarizeFile` preserves `Synced` (`StepKeepsSynced`). A corrupt cache file breaks `Synced` by itself, because it reads as `{}` while the artifacts remain. The reset that follows leaves those artifacts orphaned, with no entry (`CorruptResetOrphansArtifacts`).
- `getRepoSummary` reads only the top level of `summaries/`. The artifact of a file in a subdirectory lives in a subdirectory of `summaries/`, so it never reaches the repository summary (`NestedArtifactHidden`, `OnlyNestedShowsSentinel`).
- `summarizeTextWithAI` passes `includeRepoContext` to `optimizeText`, and `optimizeText` ignores it (`RepoContextIgnored`).
- `success` in a tool result is `!result.error`. An error with an empty message therefore reports success (`ShrinkSuccess`).
- A `summarize` call of type `file` answers with an undefined summary and `success: true`, because `summarizeFile` resolves to `{changed, removed}`.
- When `summarizeFile` rejects during a watcher batch, the rejection escapes `processQueue` before `busy` is cleared. After that no later tick processes anything. `ProcessQueue` states `busy == tick.Rejected?`.
- In the sequential model, where each `data` handler finishes before the next chunk arrives, the MCP server's framing does not depend on how stdin is cut into chunks (`ChunkBoundariesInvisible`).
- In the same model, every non-blank complete line gets exactly one response (`OneResponsePerLine`). Responses still pending when stdin ends are lost to `process.exit(0)`, which the model leaves out.

## Model

| member | source | states |
|---|---|---|
| Text.Split | src/mcp-server.js:206 | `split("\n")` gives at least one part and no part contains the separator |
| Text.JoinSplit | src/mcp-server.js:206-207 | Joining the parts of a split with the separator gives back the input, so nothing is lost or duplicated |
| Text.SplitAppend | src/mcp-server.js:203-207 | Splitting `x + y` equals the complete parts of `x`, followed by the split of `x`'s last part extended by `y` |
| Text.Trim | src/optimizeText.js:243 | `trim()` is empty exactly when the input is all whitespace. Otherwise it neither starts nor ends with whitespace and is no longer than the input |
| Text.TrimIsSlice | src/optimizeText.js:243 | `trim()` is a contiguous slice of the input with only whitespace before it and only whitespace after it |
| Text.TrimStart | src/mcp-server.js:210 | The leading whitespace is dropped: the result is a suffix of the input, the dropped prefix is all whitespace, and the result does not start with whitespace |
| Text.TrimEnd | src/mcp-server.js:210 | The trailing whitespace is dropped: the result is a prefix of the input, the dropped suffix is all whitespace, and the result does not end with whitespace |
| Text.TrimEnds | src/mcp-server.js:210 | Trimming the start and then the end yields an empty string exactly on all-whitespace input, and otherwise text with no whitespace at either end |
| Text.JoinStartsWithFirst | src/getRepoSummary.js:29-31 | A non-empty `join` starts with its first part |
| Text.JoinAppend | src/getRepoSummary.js:29-31 | Joining two non-empty runs of parts is joining each, with one separator between them |
| Text.JoinContains | src/getRepoSummary.js:29-31 | `join` loses no part: each part occurs in the joined text, right after the earlier parts and their separators |
| Text.JoinInOrder | src/getRepoSummary.js:29-31 | The parts appear in the joined text in their own order, none overlapping a later one |
| Text.OccursAtContains | src/getRepoSummary.js:29-31 | An occurrence at a known index is found by `includes` |
| Text.SplitAppendLines | src/mcp-server.js:203-207 | The complete lines of `x + y` are those of `x` followed by those of `x`'s tail continued by `y`, and both leave the same tail |
| Text.SplitAt | src/mcp-server.js:206 | Proof helper: with the first separator at `i`, the split is the text before `i` followed by the split of the text after it |
| Text.InitLastAppend | src/mcp-server.js:206-207 | Proof helper: the complete parts and the last part of `a + b` come from `b` when `b` is not empty |
| Text.InitLast | src/mcp-server.js:206-207 | Proof helper: the complete parts followed by the unfinished last part are the whole split |
| Text.TrimMiddle | src/optimizeText.js:243 | Proof helper: dropping a whitespace prefix and then a whitespace suffix leaves a slice of the input between whitespace |
| Text.IndexOf | src/mcp-server.js:206 | The first occurrence of a character: it is there and does not occur earlier |
| Cache.CacheStore.Load | src/cache.js:9-23 | Returns what the file holds. A missing or unreadable file leaves `{}` stored and returns `{}`. A readable file is left unchanged |
| Cache.CacheStore.Save | src/cache.js:26-29 | The file holds exactly the saved map afterwards |
| Cache.SaveThenLoad | src/cache.js:9-29 | Loading after a save returns the saved map |
| Cache.LoadTwice | src/cache.js:9-23 | Two loads return the same map, and the file then holds it |
| Cache.SafeFileName | src/cache.js:32-34 | Each `/`, `\` and `:` becomes `__`: the length grows by one per separator, no separator remains, and a name without separators is unchanged. A lone separator becomes exactly `__` |
| Cache.SafeFileNameAppend | src/cache.js:32-34 | The replacement works character by character, so it distributes over concatenation |
| Cache.SafeFileNameCollides | src/cache.js:32-34 | The mapping is not injective: `a/b`, `a\b`, `a:b` and `a__b` all become `a__b` |
| Optimize.FirstSet | src/optimizeText.js:38-41 | A chain of `\|\|` over environment variables gives nothing exactly when none is set. Otherwise it gives the first one that is set, in order |
| Optimize.FirstSetCons | src/optimizeText.js:38-41 | Proof helper: the `\|\|` chain takes its head when the head is set and falls through to the rest otherwise |
| Optimize.ProviderPrecedence | src/optimizeText.js:12-15 | `USER_PREFERRED_PROVIDER` wins over `AI_PROVIDER`, the value is lowercased, and the default is `openrouter` |
| Optimize.KeyPrecedence | src/optimizeText.js:37-114 | For OpenRouter, OpenAI and Anthropic, resolution fails with the provider's "No … API key found" message exactly when `USER_API_KEY`, the provider's key variable and `AI_API_KEY` are all unset. Otherwise the key is the first of them that is set |
| Optimize.ModelPrecedence | src/optimizeText.js:42-45 | The provider's model variable wins over `AI_MODEL`, which wins over the provider's default model |
| Optimize.InputTokens | src/optimizeText.js:187 | `ceil(length / 4)`: four times the estimate covers the length by less than four |
| Optimize.TargetTokens | src/optimizeText.js:188 | At least 20. Otherwise half the input estimate rounded down. Never above the larger of 20 and the estimate |
| Optimize.BuildRequest | src/optimizeText.js:197-224 | The request goes to the resolved client with the fixed system prompt. The token budget is `TargetTokens`. The user message ends with the input |
| Optimize.ValidateReply | src/optimizeText.js:229-262 | A thrown error becomes its message. No choices gives "No response choices from AI", no message gives "No message in AI response", and a message whose content is absent, empty or whitespace gives "AI returned empty summary". A summary is produced exactly when the content trims to something non-empty; it is that trimmed content, with both lengths recorded |
| Optimize.OptimizeText | src/optimizeText.js:180-264 | Non-string input is refused with "Unsupported input type". A missing key gives the resolver's "No … API key found" message. Ollama always ends in its error. Otherwise the result is `ValidateReply` of the provider's reply to `BuildRequest` for the resolved client and the input. Every summary records the input length |
| Optimize.OptimizeSucceedsIff | src/optimizeText.js:180-264 | A string input is summarized exactly when a non-Ollama client resolves and the provider's reply carries content that is not all whitespace |
| Optimize.ProviderName | src/optimizeText.js:12-15 | The provider name taken from the environment is never empty, because an empty setting falls through to `openrouter` |
| Optimize.SelectProvider | src/optimizeText.js:20-34 | The four known names select their provider. Any other name falls back to OpenRouter |
| Optimize.ResolveFor | src/optimizeText.js:37-129 | Ollama always resolves, without a key. A key-based provider fails only with its own "No … API key found" message. A resolved client has the selected provider and its model, and a base URL for every provider except OpenAI |
| Optimize.ResolveClient | src/optimizeText.js:10-35 | The client resolved, or the key error raised, is that of the provider selected from the environment |
| Optimize.NoKeyIsError | src/optimizeText.js:180-184 | With no key available, `optimizeText` returns the key error instead of throwing |
| Summarizer.EstimateTokens | src/summarizer.js:14 | `ceil(length / 4)` |
| Summarizer.ArtifactPathInjective | src/summarizer.js:83 | Different files get different artifact paths |
| Summarizer.SummarizeTextWithAI | src/summarizer.js:56-75 | The result is exactly what `optimizeText` returns for the content, with the file name and the timestamp added. A summary's original length is the content's length |
| Summarizer.RepoContextIgnored | src/summarizer.js:56-62 | The `includeRepoContext` flag has no effect on the result |
| Summarizer.SummarizeStep | src/summarizer.js:77-120 | Sources are never changed and the cache is written back. The call reports `removed` exactly when the file is missing, and `changed` exactly when the file exists, its cached hash does not match, and it is at or over the token limit |
| Summarizer.Workspace.SummarizeFile | src/summarizer.js:77-120 | The new sources, artifacts and cache, and the reported outcome, are exactly those of `SummarizeStep` from the old state |
| Summarizer.MissingSourceCleansUp | src/summarizer.js:81-88 | A file that no longer exists loses its artifact and its cache entry, and the call reports `removed` |
| Summarizer.UnchangedIsNoOp | src/summarizer.js:90-92 | A file whose cached hash matches changes nothing, and the call reports no change |
| Summarizer.SmallFileDropsArtifact | src/summarizer.js:94-102 | A changed file under the token limit loses any stale artifact and cache entry, and the call reports no change |
| Summarizer.LargeFileIsCompressed | src/summarizer.js:104-119 | A changed file at or over the limit gets an artifact holding its name, its token estimate and the `optimizeText` result. The cache records the new hash, and the call reports a change |
| Summarizer.ThresholdBoundary | src/summarizer.js:12-14 | 7996 characters is 1999 tokens, so the file counts as small. 7997 characters is 2000 tokens, so it is compressed |
| Summarizer.FailureIsCached | src/summarizer.js:105-118 | A failed compression still stores its error in the artifact and caches the hash, so the file is not retried until it changes |
| Summarizer.OnlyFileTouched | src/summarizer.js:77-120 | The cache entries of other files and the artifacts of other files are unchanged. Sources are never changed |
| Summarizer.SecondCallSettles | src/summarizer.js:77-120 | Idempotence: a second call on the same sources changes nothing and reports no change, whatever the provider or clock do the second time |
| Summarizer.StepKeepsEntriesBacked | src/summarizer.js:77-120 | If every cache entry has its artifact before a call, it still does afterwards |
| Summarizer.StepKeepsSynced | src/summarizer.js:77-120 | Entries and artifacts correspond one to one before a call, and still do afterwards |
| Summarizer.CorruptResetOrphansArtifacts | src/cache.js:16-22 | After a corrupt cache is reset, an existing artifact is left without a cache entry |
| RepoSummary.RepoSummary | src/getRepoSummary.js:4-32 | A missing directory gives "No repository summaries available yet.". When something contributes, the text starts with the first block. `EveryBlockShown` proves every later block is in it too, in order |
| RepoSummary.Blocks | src/getRepoSummary.js:15-27 | At most one block per listed name |
| RepoSummary.GetRepoSummary | src/getRepoSummary.js:4-32 | The loop's result equals the pure `RepoSummary` |
| RepoSummary.BlocksAppend | src/getRepoSummary.js:15-27 | The blocks of two listings concatenated are the blocks of each, in order |
| RepoSummary.SkipUnreadable | src/getRepoSummary.js:19-26 | An unreadable file contributes nothing and does not stop the loop |
| RepoSummary.BlockListed | src/getRepoSummary.js:17-23 | Every listed `.json` file other than `_cache.json` with a truthy `summary` contributes `name: summary` |
| RepoSummary.BlockSource | src/getRepoSummary.js:17-23 | Every block comes from such a file |
| RepoSummary.EveryBlockShown | src/getRepoSummary.js:15-31 | Every block occurs in the returned text where the `"\n\n"` join puts it, so `includes` finds it. Each block ends before the next one begins, so the blocks keep listing order |
| RepoSummary.SentinelExactlyWhenEmpty | src/getRepoSummary.js:8-10 | The text is "No repository summaries available yet." exactly when the directory is missing or nothing contributes |
| RepoSummary.RootArtifactVisible | src/getRepoSummary.js:15-31 | The non-empty summary of a top-level file's artifact gives a block, and the text `getRepoSummary` returns contains that block |
| RepoSummary.NestedArtifactHidden | src/getRepoSummary.js:12 | The artifact of a file in a subdirectory is never among the listed names |
| RepoSummary.OnlyNestedShowsSentinel | src/getRepoSummary.js:12-31 | A repository whose only summary belongs to a nested file reports that no summaries exist |
| Watcher.KeepIff | src/watcher.js:46-71 | A path is dropped exactly when one of its parts is an ignored directory or starts with `.`, or the path contains `__doc__doc__` |
| Watcher.Keep | src/watcher.js:46-71 | A path containing `__doc__doc__`, or starting with `.`, is dropped |
| Watcher.KeepPaths | src/watcher.js:46-71 | The kept paths are exactly the given paths that pass the filter, and never more of them. A single path is kept exactly when it passes |
| Watcher.KeepPathsAppend | src/watcher.js:46-71 | `filter` keeps order: filtering two runs of paths gives the kept paths of each, in order |
| Watcher.KeepPathsNoDuplicates | src/watcher.js:42-71 | Filtering a duplicate-free snapshot keeps it duplicate-free |
| Watcher.Insert | src/watcher.js:92-94 | `Set.add`: keeps insertion order, is a no-op for a known path, and never creates duplicates |
| Watcher.InsertAll | src/watcher.js:92-94 | Adding several paths gives exactly the old members and the new paths, with no duplicates |
| Watcher.ReportedTwiceIsPendingOnce | src/watcher.js:92-94 | A path reported twice is pending once |
| Watcher.RunBatch | src/watcher.js:73-78 | Paths are summarized in order, each once. `updated` is the number of summarized paths that reported a change. A rejection ends the batch at the path that rejected |
| Watcher.ChangedCountSnoc | src/watcher.js:77 | Summarizing one more path adds one to `updated` exactly when that path reports a change |
| Watcher.RunBatchRejectedSnoc | src/watcher.js:74-78 | Proof helper: once the batch has rejected, a further path changes nothing |
| Watcher.RunBatchStops | src/watcher.js:74-78 | After a rejection, no later path is summarized |
| Watcher.BatchOutcome | src/watcher.js:46-86 | A batch completes exactly when no kept path rejects; otherwise it stops at a kept path that rejected. A completed batch reports `checked` as the number of kept paths and `updated` as the number of kept paths that changed. Checked plus skipped equals the snapshot, so skipped is the number of dropped paths, and it appears only when positive |
| Watcher.SummarizeAll | src/watcher.js:73-78 | The loop computes exactly `RunBatch` |
| Watcher.ChangeWatcher.Notify | src/watcher.js:92-94 | An event adds its path to the pending set. The set stays duplicate-free |
| Watcher.ChangeWatcher.ProcessQueue | src/watcher.js:39-88 | A busy watcher or an empty set does nothing. Otherwise the snapshot is taken and cleared, and the batch outcome and calls are those of `RunBatch` over the kept paths. Paths reported during the batch stay pending. `busy` stays set exactly when the batch rejected |
| Watcher.SummarizedOnce | src/watcher.js:42-78 | In a batch that completes, each kept path of the snapshot is summarized exactly once |
| McpServer.HandleRequest | src/mcp-server.js:59-195 | Every response carries the request's `id`. The handler rejects only for `tools/call` without `params`. `tools/list` answers with the tools. A `tools/call` with `params` is answered with what `CallTool` returns for its name and arguments. Any other method gets -32601 naming it |
| McpServer.ToolsListed | src/mcp-server.js:9-57 | The tools listed are `shrink`, `summarize` and `fetch-summary`, in that order |
| McpServer.CallTool | src/mcp-server.js:72-184 | A `tools/call` gets -32601 exactly when the tool is none of the three. Any other error is -32603 "Internal error" with a reason. `fetch-summary` always answers with a result |
| McpServer.FileSummarizeReportsSuccess | src/mcp-server.js:95-133 | A `summarize` of type `file` whose `summarizeFile` resolves answers with an undefined summary and `success: true`. A rejection becomes -32603 with its message |
| McpServer.UnknownToolNotFound | src/mcp-server.js:166-173 | An unknown tool name is answered with -32601 "Method not found: name" |
| McpServer.MissingArgumentsInternal | src/mcp-server.js:77-98 | A missing `text`, `content` or `type` is answered with -32603 "Internal error", with the reason as `data` |
| McpServer.ShrinkSuccess | src/mcp-server.js:76-92 | `success` is false exactly when `optimizeText` returns a non-empty error. A summary is returned with both lengths. An error is returned as the compressed text, with neither length |
| McpServer.TextSummarizeSuccess | src/mcp-server.js:95-145 | A `summarize` whose type is neither `repo` nor `file` goes through `optimizeText`. `success` is false exactly when the result carries a non-empty error. A summary comes back with both lengths, and an error as the summary text with no lengths |
| McpServer.RepoSummarizeAnswers | src/mcp-server.js:95-121 | A `summarize` of type `repo` answers with the repository summary and the current time |
| McpServer.FetchEmptyIff | src/mcp-server.js:149-163 | `cacheStatus` is "empty" exactly when there is no summaries directory or nothing in it contributes |
| McpServer.HandleLine | src/mcp-server.js:209-228 | A line yields no response exactly when it is blank |
| McpServer.LineAnswered | src/mcp-server.js:209-228 | A parse failure, a `null` request and a rejected handler each give -32700 "Parse error" with a null id and the message. Any other line gives the handler's response |
| McpServer.Written | src/mcp-server.js:209-228 | A single line writes at most one response |
| McpServer.Responses | src/mcp-server.js:209-229 | At most one response per line |
| McpServer.ResponsesSnoc | src/mcp-server.js:209-229 | Proof helper: the loop's responses grow line by line, in order |
| McpServer.AnswerLines | src/mcp-server.js:209-229 | The loop over the complete lines writes exactly `Responses` |
| McpServer.OneResponsePerLine | src/mcp-server.js:209-229 | Exactly one response per non-blank line |
| McpServer.ResponsesAppend | src/mcp-server.js:209-229 | The responses to two runs of lines are the responses to each, in order |
| McpServer.FlatMapAppend | src/mcp-server.js:209-229 | Proof helper: the per-line outputs of two runs of lines, concatenated in order, are those of the whole run |
| McpServer.FlatMapAtMostOne | src/mcp-server.js:209-229 | Proof helper: when each line yields at most one output, a run of lines yields at most one per line |
| McpServer.Feed | src/mcp-server.js:202-229 | One `data` event: the new buffer holds no newline. A chunk that completes no line is only buffered. The number of responses is the number of non-blank complete lines |
| McpServer.FeedUnfold | src/mcp-server.js:203-209 | Proof helper: the buffer becomes the last part of the split and the responses are those of the other parts |
| McpServer.ChunkBoundariesInvisible | src/mcp-server.js:202-230 | Feeding two chunks leaves the same buffer and writes the same responses, in the same order, as feeding their concatenation |
| McpServer.StdioServer.OnData | src/mcp-server.js:202-230 | Appends to the output exactly the responses for the complete lines. The buffer keeps the unterminated tail, with no newline. The complete lines and the tail rejoin to the old buffer plus the chunk |

## Left out

- Logging (`console.log`, `console.warn`, `console.error`, `console.clear`) and the batch message text. The counts it prints are modelled in `Report`.
- Chokidar's glob patterns and ignore list, `WATCH_PATTERNS` and `WATCH_IGNORE`, and the 2-second timer. A tick is one call of `ProcessQueue`, and events are `Notify` calls.
- `path.relative` and `path.join` are not modelled. Paths are taken as already relative to the repository root, with `/` as separator.
- The concurrency of `async` handlers. Overlapping `data` events and events arriving during an awaited call are each modelled as sequential steps; the paths reported during a batch are a parameter of `ProcessQueue`.
- SHA-1 itself is not modelled. `hash` is any function from content to text.
- Timestamps (`Date.now()`, `toISOString()`, `toLocaleTimeString()`) are parameters.
- `compressionRatio` and `compression_ratio` are not modelled. They are floating point (`toFixed(1)`).
- The request's `temperature: 0.3` is not modelled.
- `optimizeText`'s network calls: the provider is a function from the request to a reply. The three base URLs are recorded on the client.
- Text.Lower: `toLowerCase` is modelled for ASCII letters only. The case of non-ASCII letters does not decide any provider name.
- String lengths count Dafny characters, not UTF-16 code units.
- Optimize.ValidateReply: a `message.content` that is neither a string nor absent (where `trim` would throw) is not modelled. Content is either a string or missing.
- Cache.CacheStore.Load: a cache file holding valid JSON that is not an object is not modelled. It is either missing, unreadable or a map.
- `fs.readdir` failing on an existing `summaries/` path, and directory creation (`ensureDir`), are not modelled.
- `analyzeJS` and `localSummarizeText` are not modelled. No modelled operation calls them.
- JSON serialisation of responses is not modelled. A response is the value that `JSON.stringify` would write. Fields that are `undefined` are `Missing`.
- The process exits on `end`, `SIGINT` and `SIGTERM`, and the startup banner is written to stderr. Neither is modelled.
- A file write or removal that fails partway through `summarizeFile` (src/summarizer.js:94-119) is not modelled. Every write succeeds, so `StepKeepsSynced` does not cover an artifact written without its cache entry, or the reverse.
- Two `data` handlers that interleave at their `await` points can reorder responses across chunks. `ChunkBoundariesInvisible` and `OneResponsePerLine` hold for handlers that run one after another.
- `process.exit(0)` on stdin's `end` drops responses whose handler has not finished. The model writes every response.
- Node's reaction to the unhandled rejection out of `processQueue` is not modelled. The model stops at the rejection, with `busy` left set.

=== FILE: cache.dfy ===
/**
 * The persisted summary cache: `summaries/_cache.json`, a map from repository-relative path to
 * the content hash last summarized and the time of that update, plus the path-escaping helper.
 */
module Cache {

  /** One cache record: the hash of the content last summarized and when it was recorded. */
  datatype Entry = Entry(hash: string, updated: int)

  /** The cache file on disk: absent, present but unreadable as JSON, or holding a map. */
  datatype CacheFile = Missing | Corrupt | Stored(entries: map<string, Entry>)

  /** The map `loadCache` hands back for a file in state `f`. */
  function Loaded(f: CacheFile): map<string, Entry> {
    if f.Stored? then f.entries else map[]
  }

  /** The persisted cache, owned by one process. */
  class CacheStore {
    var file: CacheFile

    constructor (initial: CacheFile)
      ensures file == initial
    {
      file := initial;
    }

    /**
     * `loadCache`: a missing file is first created as `{}`; an unreadable one is reset to `{}`
     * and the failure is swallowed. Afterwards the file always exists and holds the result.
     */
    method Load() returns (m: map<string, Entry>)
      modifies this
      ensures m == Loaded(old(file))
      ensures file == Stored(m)
      ensures old(file).Stored? ==> file == old(file)
    {
      if file.Missing? {
        file := Stored(map[]);
      }
      match file {
        case Stored(entries) =>
          m := entries;
        case Corrupt =>
          file := Stored(map[]);
          m := map[];
      }
    }

    /** `saveCache`: overwrite the file with the whole map. */
    method Save(m: map<string, Entry>)
      modifies this
      ensures file == Stored(m)
    {
      file := Stored(m);
    }
  }

  /** Saving a map and loading the cache again hands back that same map. */
  method SaveThenLoad(store: CacheStore, m: map<string, Entry>) returns (loaded: map<string, Entry>)
    modifies store
    ensures loaded == m && store.file == Stored(m)
  {
    store.Save(m);
    loaded := store.Load();
  }

  /** Loading twice is loading once: the second load sees what the first left behind. */
  method LoadTwice(store: CacheStore) returns (first: map<string, Entry>, second: map<string, Entry>)
    modifies store
    ensures first == second == Loaded(old(store.file))
    ensures store.file == Stored(first)
  {
    first := store.Load();
    second := store.Load();
  }

  /** The characters `safeFileName` rewrites: `/`, `\` and `:`. */
  predicate IsSeparator(c: char) {
    c == '/' || c == '\\' || c == ':'
  }

  function SeparatorCount(s: string): nat {
    if s == [] then 0 else (if IsSeparator(s[0]) then 1 else 0) + SeparatorCount(s[1..])
  }

  /**
   * `safeFileName`: every separator becomes `__`, every other character is kept in place. The
   * result holds no separator and is longer than the input by the number of separators.
   */
  function SafeFileName(path: string): (r: string)
    ensures |r| == |path| + SeparatorCount(path)
    ensures forall k :: 0 <= k < |r| ==> !IsSeparator(r[k])
    ensures SeparatorCount(path) == 0 ==> r == path
    ensures |path| == 1 ==> r == (if IsSeparator(path[0]) then "__" else path)
  {
    if path == [] then []
    else (if IsSeparator(path[0]) then "__" else [path[0]]) + SafeFileName(path[1..])
  }

  /** Escaping works character by character, so it distributes over concatenation. */
  lemma {:induction false} SafeFileNameAppend(a: string, b: string)
    ensures SafeFileName(a + b) == SafeFileName(a) + SafeFileName(b)
    decreases |a|
  {
    if a != [] {
      assert (a + b)[1..] == a[1..] + b;
      SafeFileNameAppend(a[1..], b);
    } else {
      assert a + b == b;
    }
  }

  /** The escape is not injective: three different paths share one escaped name. */
  lemma SafeFileNameCollides()
    ensures SafeFileName("a/b") == SafeFileName("a\\b") == SafeFileName("a:b") == SafeFileName("a__b") == "a__b"
  {
  }
}

=== FILE: js.dfy ===
/** JavaScript values as the core sees them: only the distinctions its code draws. */
module Js {

  datatype Option<+T> = None | Some(value: T)

  /** The outcome of an awaited promise: resolved with a value or rejected with an error message. */
  datatype Attempt<+T> = Done(value: T) | Failed(message: string)

  /**
   * A JSON value, or a property read from one. `Missing` is `undefined` (absent property),
   * `Null` is JSON `null`; every non-string value other than those two is `Other`, carrying
   * its JavaScript truthiness and the text a template literal renders it as.
   */
  datatype Value = Missing | Null | Str(str: string) | Other(truthy: bool, text: string)

  /** JavaScript truthiness (`!!v`). */
  predicate Truthy(v: Value) {
    match v
    case Missing => false
    case Null => false
    case Str(s) => s != ""
    case Other(t, _) => t
  }

  /** What `${v}` renders inside a template literal. */
  function Display(v: Value): string {
    match v
    case Missing => "undefined"
    case Null => "null"
    case Str(s) => s
    case Other(_, t) => t
  }

  /** JavaScript's `a || b` on values. */
  function Or(a: Value, b: Value): Value {
    if Truthy(a) then a else b
  }
}

=== FILE: mcp_server.dfy ===
/**
 * The MCP server over stdin/stdout: newline-delimited JSON-RPC 2.0 requests are cut out of the
 * input stream and dispatched to the three tools. JSON parsing, the tools' collaborators and
 * the clock are parameters.
 */
module McpServer {
  import opened Js
  import Text
  import Optimize
  import RepoSummary
  import Summarizer

  /** A tool descriptor: name, description, the properties of its input schema and the required ones. */
  datatype Tool = Tool(name: string, description: string, properties: seq<string>, required: seq<string>)

  /** `Object.values(tools)`, in declaration order. */
  const Tools: seq<Tool> := [
    Tool("shrink", "Compress text content to reduce token usage", ["text"], ["text"]),
    Tool("summarize", "Generate a summary of provided content", ["content", "type"], ["content", "type"]),
    Tool("fetch-summary", "Retrieve repository summaries from cache", ["repoPath"], [])
  ]

  /** The properties the tools read from `arguments`; all `Missing` when it is absent or not an object. */
  datatype Args = Args(text: Value, content: Value, kind: Value, repoPath: Value)

  /** `params`: `undefined` or `null` (`NoParams`), or an object with `name` and `arguments`. */
  datatype Params = NoParams(isNull: bool) | Params(name: Value, args: Args)

  /** A parsed request object; anything parsed that is not `null` destructures this way. */
  datatype Request = Request(id: Value, rpcMethod: Value, params: Params)

  /** What `JSON.parse` gives for a trimmed line. */
  datatype Parsed = Unparseable(message: string) | JsonNull | Json(request: Request)

  /**
   * What a request handler awaits: the environment and provider for `optimizeText`, the
   * listing of `summaries/` for `getRepoSummary`, `summarizeFile` itself, the working
   * directory and the ISO timestamp of the moment.
   */
  datatype Services = Services(env: Optimize.Env, send: Optimize.ChatRequest -> Optimize.Reply,
                               summaries: Option<seq<RepoSummary.Entry>>,
                               summarizeFile: Value -> Attempt<Summarizer.Outcome>,
                               cwd: string, now: string)

  /** The `result` objects (the floating-point `compressionRatio` is left out). */
  datatype ToolResult =
    | ToolList(tools: seq<Tool>)
    | Shrunk(compressedText: string, originalLength: Option<nat>, compressedLength: Option<nat>, success: bool)
    | RepoSummarized(summary: string, timestamp: string)
    | FileSummarized(fileSummary: Value, filePath: Value, success: bool)
    | TextSummarized(summary: string, originalLength: Option<nat>, compressedLength: Option<nat>, success: bool)
    | Fetched(summaries: string, repoPath: Value, timestamp: string, cacheStatus: string)

  datatype Body = Result(result: ToolResult) | Error(code: int, message: string, data: Option<string>)

  /** A JSON-RPC 2.0 response: the request's `id` and either a result or an error. */
  datatype Response = Response(id: Value, body: Body)

  /** `handleRequest` either resolves with a response or rejects with an error message. */
  datatype Handled = Responded(response: Response) | Threw(message: string)

  const MethodNotFound: int := -32601
  const InternalError: int := -32603
  const ParseError: int := -32700

  function Internal(message: string): Body {
    Error(InternalError, "Internal error", Some(message))
  }

  /** `result.summary || result.error` for an `optimizeText` result. */
  function SummaryOrError(r: Optimize.Result): string {
    if r.Summary? then r.summary else r.error
  }

  /** `!result.error`: only a non-empty error message counts as failure. */
  function Success(r: Optimize.Result): bool {
    !(r.Error? && r.error != "")
  }

  function Lengths(r: Optimize.Result): (Option<nat>, Option<nat>) {
    if r.Summary? then (Some(r.originalLength), Some(r.compressedLength)) else (None, None)
  }

  /** The body of a `tools/call` for tool `name`, from inside its `try`. */
  function CallTool(name: Value, args: Args, svc: Services): (b: Body)
    ensures (b.Error? && b.code == MethodNotFound)
              <==> name != Str("shrink") && name != Str("summarize") && name != Str("fetch-summary")
    ensures b.Error? ==> b.code == MethodNotFound
                         || (b.code == InternalError && b.message == "Internal error" && b.data.Some?)
    ensures name == Str("fetch-summary") ==> b.Result? && b.result.Fetched?
  {
    if name == Str("shrink") then
      if !Truthy(args.text) then Internal("Missing required parameter: text")
      else
        var r := Optimize.OptimizeText(args.text, svc.env, svc.send);
        Result(Shrunk(SummaryOrError(r), Lengths(r).0, Lengths(r).1, Success(r)))
    else if name == Str("summarize") then
      if !Truthy(args.content) || !Truthy(args.kind) then
        Internal("Missing required parameters: content and type")
      else if args.kind == Str("repo") then
        Result(RepoSummarized(RepoSummary.RepoSummary(svc.summaries), svc.now))
      else if args.kind == Str("file") then
        match svc.summarizeFile(args.content)
        case Failed(m) => Internal(m)
        // `{changed, removed}` has neither `summary` nor `error`
        case Done(_) => Result(FileSummarized(Or(Missing, Missing), args.content, !Truthy(Missing)))
      else
        var r := Optimize.OptimizeText(args.content, svc.env, svc.send);
        Result(TextSummarized(SummaryOrError(r), Lengths(r).0, Lengths(r).1, Success(r)))
    else if name == Str("fetch-summary") then
      var summaries := RepoSummary.RepoSummary(svc.summaries);
      Result(Fetched(summaries, Or(args.repoPath, Str(svc.cwd)), svc.now,
                     if summaries == RepoSummary.Sentinel then "empty" else "available"))
    else
      Error(MethodNotFound, "Method not found: " + Display(name), None)
  }

  /** The error V8 raises when destructuring `name` from a `params` that is undefined or null. */
  function ParamsMessage(isNull: bool): string {
    "Cannot destructure property 'name' of 'params' as it is " + (if isNull then "null" else "undefined") + "."
  }

  /**
   * `handleRequest`. Every response carries the request's `id`. The only rejection is a
   * `tools/call` without `params`, whose destructuring sits before the `try`.
   */
  function HandleRequest(req: Request, svc: Services): (h: Handled)
    ensures h.Responded? ==> h.response.id == req.id
    ensures h.Threw? <==> req.rpcMethod == Str("tools/call") && req.params.NoParams?
    ensures req.rpcMethod == Str("tools/list") ==> h == Responded(Response(req.id, Result(ToolList(Tools))))
    ensures req.rpcMethod != Str("tools/list") && req.rpcMethod != Str("tools/call") ==>
              h == Responded(Response(req.id, Error(MethodNotFound, "Method not found: " + Display(req.rpcMethod), None)))
    ensures req.rpcMethod == Str("tools/call") && req.params.Params? ==>
              h == Responded(Response(req.id, CallTool(req.params.name, req.params.args, svc)))
  {
    if req.rpcMethod == Str("tools/list") then
      Responded(Response(req.id, Result(ToolList(Tools))))
    else if req.rpcMethod == Str("tools/call") then
      match req.params
      case NoParams(isNull) => Threw(ParamsMessage(isNull))
      case Params(name, args) => Responded(Response(req.id, CallTool(name, args, svc)))
    else
      Responded(Response(req.id, Error(MethodNotFound, "Method not found: " + Display(req.rpcMethod), None)))
  }

  /** `tools/list` lists `shrink`, `summarize` and `fetch-summary`, in that order. */
  lemma ToolsListed()
    ensures |Tools| == 3 && Tools[0].name == "shrink" && Tools[1].name == "summarize"
            && Tools[2].name == "fetch-summary"
  {
  }

  /** An unknown tool is answered with -32601 naming it. */
  lemma UnknownToolNotFound(name: Value, args: Args, svc: Services)
    requires name != Str("shrink") && name != Str("summarize") && name != Str("fetch-summary")
    ensures CallTool(name, args, svc) == Error(MethodNotFound, "Method not found: " + Display(name), None)
  {
  }

  /** Missing tool arguments are answered with -32603 "Internal error", the reason as `data`. */
  lemma MissingArgumentsInternal(args: Args, svc: Services)
    ensures !Truthy(args.text) ==>
              CallTool(Str("shrink"), args, svc) == Error(InternalError, "Internal error", Some("Missing required parameter: text"))
    ensures !Truthy(args.content) || !Truthy(args.kind) ==>
              CallTool(Str("summarize"), args, svc)
                == Error(InternalError, "Internal error", Some("Missing required parameters: content and type"))
  {
  }

  /**
   * `success` is false exactly when the result carries a non-empty error; a successful shrink
   * returns the summary and both lengths, a failed one the error message and no lengths.
   */
  lemma ShrinkSuccess(args: Args, svc: Services)
    requires Truthy(args.text)
    ensures var r := Optimize.OptimizeText(args.text, svc.env, svc.send);
            && CallTool(Str("shrink"), args, svc).Result?
            && (CallTool(Str("shrink"), args, svc).result.success <==> (r.Summary? || r.error == ""))
    ensures var r := Optimize.OptimizeText(args.text, svc.env, svc.send);
            r.Summary? ==> CallTool(Str("shrink"), args, svc)
                             == Result(Shrunk(r.summary, Some(|args.text.str|), Some(|r.summary|), true))
    ensures var r := Optimize.OptimizeText(args.text, svc.env, svc.send);
            r.Error? ==> CallTool(Str("shrink"), args, svc) == Result(Shrunk(r.error, None, None, r.error == ""))
  {
  }

  /**
   * A `summarize` of type `file` that resolves answers with an undefined summary and
   * `success: true`, since `{changed, removed}` has neither `summary` nor `error`; one that
   * rejects is answered with -32603 and the rejection's message.
   */
  lemma FileSummarizeReportsSuccess(args: Args, svc: Services)
    requires Truthy(args.content) && args.kind == Str("file")
    ensures svc.summarizeFile(args.content).Done? ==>
              CallTool(Str("summarize"), args, svc) == Result(FileSummarized(Missing, args.content, true))
    ensures svc.summarizeFile(args.content).Failed? ==>
              CallTool(Str("summarize"), args, svc)
                == Error(InternalError, "Internal error", Some(svc.summarizeFile(args.content).message))
  {
  }

  /**
   * A `summarize` whose `type` is neither `repo` nor `file` goes through `optimizeText`:
   * `success` is false exactly when the result carries a non-empty error, and a summary is
   * returned with both lengths.
   */
  lemma TextSummarizeSuccess(args: Args, svc: Services)
    requires Truthy(args.content) && Truthy(args.kind)
    requires args.kind != Str("repo") && args.kind != Str("file")
    ensures var r := Optimize.OptimizeText(args.content, svc.env, svc.send);
            && CallTool(Str("summarize"), args, svc).Result?
            && CallTool(Str("summarize"), args, svc).result.TextSummarized?
            && (CallTool(Str("summarize"), args, svc).result.success <==> (r.Summary? || r.error == ""))
    ensures var r := Optimize.OptimizeText(args.content, svc.env, svc.send);
            r.Summary? ==> CallTool(Str("summarize"), args, svc)
                             == Result(TextSummarized(r.summary, Some(|args.content.str|), Some(|r.summary|), true))
    ensures var r := Optimize.OptimizeText(args.content, svc.env, svc.send);
            r.Error? ==> CallTool(Str("summarize"), args, svc)
                           == Result(TextSummarized(r.error, None, None, r.error == ""))
  {
  }

  /** A `summarize` of type `repo` answers with the repository summary and the current time. */
  lemma RepoSummarizeAnswers(args: Args, svc: Services)
    requires Truthy(args.content) && args.kind == Str("repo")
    ensures CallTool(Str("summarize"), args, svc)
              == Result(RepoSummarized(RepoSummary.RepoSummary(svc.summaries), svc.now))
  {
  }

  /** `fetch-summary` reports "empty" exactly when there is no summaries directory or nothing in it contributes. */
  lemma FetchEmptyIff(args: Args, svc: Services)
    ensures CallTool(Str("fetch-summary"), args, svc).Result?
    ensures (CallTool(Str("fetch-summary"), args, svc).result.cacheStatus == "empty")
              <==> (svc.summaries.None? || RepoSummary.Blocks(svc.summaries.value) == [])
  {
    RepoSummary.SentinelExactlyWhenEmpty(svc.summaries);
  }

  /** The response to a request that could not be parsed or destructured: -32700 with a null id. */
  function ParseFailure(message: string): Response {
    Response(Null, Error(ParseError, "Parse error", Some(message)))
  }

  /** The error V8 raises when destructuring a request that parsed to `null`. */
  const NullRequestMessage := "Cannot destructure property 'id' of 'request' as it is null."

  /** One line of input: blank lines are skipped, every other line yields exactly one response. */
  function HandleLine(line: string, parse: string -> Parsed, svc: Services): (r: Option<Response>)
    ensures r.None? <==> Text.AllWhitespace(line)
  {
    var trimmed := Text.Trim(line);
    if trimmed == [] then None
    else
      match parse(trimmed)
      case Unparseable(m) => Some(ParseFailure(m))
      case JsonNull => Some(ParseFailure(NullRequestMessage))
      case Json(req) =>
        match HandleRequest(req, svc)
        case Responded(response) => Some(response)
        case Threw(m) => Some(ParseFailure(m))
  }

  /** What is written to stdout for one line: nothing, or its response. */
  function Written(line: string, parse: string -> Parsed, svc: Services): (w: seq<Response>)
    ensures |w| <= 1
  {
    match HandleLine(line, parse, svc)
    case None => []
    case Some(response) => [response]
  }

  /** `Written` as a function of the line alone. */
  function Writer(parse: string -> Parsed, svc: Services): string -> seq<Response> {
    line => Written(line, parse, svc)
  }

  /** The outputs of `f` for each of `xs`, concatenated in order. */
  function FlatMap<T, U>(xs: seq<T>, f: T -> seq<U>): seq<U> {
    if xs == [] then [] else FlatMap(xs[..|xs| - 1], f) + f(xs[|xs| - 1])
  }

  lemma {:induction false} FlatMapAppend<T, U>(a: seq<T>, b: seq<T>, f: T -> seq<U>)
    ensures FlatMap(a + b, f) == FlatMap(a, f) + FlatMap(b, f)
    decreases |b|
  {
    if b == [] {
      assert a + b == a;
    } else {
      var b' := b[..|b| - 1];
      assert (a + b)[..|a + b| - 1] == a + b' && (a + b)[|a + b| - 1] == b[|b| - 1];
      FlatMapAppend(a, b', f);
    }
  }

  lemma {:induction false} FlatMapAtMostOne<T, U>(xs: seq<T>, f: T -> seq<U>)
    requires forall x :: |f(x)| <= 1
    ensures |FlatMap(xs, f)| <= |xs|
    decreases |xs|
  {
    if xs != [] {
      FlatMapAtMostOne(xs[..|xs| - 1], f);
    }
  }

  /** The responses written for `lines`, in order. */
  function Responses(lines: seq<string>, parse: string -> Parsed, svc: Services): (r: seq<Response>)
    ensures |r| <= |lines|
  {
    FlatMapAtMostOne(lines, Writer(parse, svc));
    FlatMap(lines, Writer(parse, svc))
  }

  /** The number of lines that are not blank. */
  function NonBlank(lines: seq<string>): (n: nat)
    ensures n <= |lines|
  {
    if lines == [] then 0
    else NonBlank(lines[..|lines| - 1]) + (if Text.AllWhitespace(lines[|lines| - 1]) then 0 else 1)
  }

  /** Exactly one response is written per non-blank line, blank lines none. */
  lemma {:induction false} OneResponsePerLine(lines: seq<string>, parse: string -> Parsed, svc: Services)
    ensures |Responses(lines, parse, svc)| == NonBlank(lines)
  {
    if lines != [] {
      OneResponsePerLine(lines[..|lines| - 1], parse, svc);
    }
  }

  /**
   * A non-blank line is answered with the handler's response, carrying the request's `id`; a
   * line that does not parse, parses to `null`, or whose handler rejects is answered with a
   * -32700 "Parse error" whose `id` is null and whose `data` is the error message.
   */
  lemma LineAnswered(line: string, parse: string -> Parsed, svc: Services)
    requires !Text.AllWhitespace(line)
    ensures var p := parse(Text.Trim(line));
            var r := HandleLine(line, parse, svc);
            && r.Some?
            && (p.Unparseable? ==> r.value == ParseFailure(p.message))
            && (p.JsonNull? ==> r.value == ParseFailure(NullRequestMessage))
            && (p.Json? && HandleRequest(p.request, svc).Threw? ==>
                  r.value == ParseFailure(HandleRequest(p.request, svc).message))
            && (p.Json? && HandleRequest(p.request, svc).Responded? ==>
                  r.value.id == p.request.id && r.value == HandleRequest(p.request, svc).response)
  {
  }

  lemma ResponsesSnoc(lines: seq<string>, i: nat, parse: string -> Parsed, svc: Services)
    requires i < |lines|
    ensures Responses(lines[..i + 1], parse, svc) == Responses(lines[..i], parse, svc) + Written(lines[i], parse, svc)
  {
    assert lines[..i + 1][..i] == lines[..i];
  }

  lemma ResponsesAppend(a: seq<string>, b: seq<string>, parse: string -> Parsed, svc: Services)
    ensures Responses(a + b, parse, svc) == Responses(a, parse, svc) + Responses(b, parse, svc)
  {
    FlatMapAppend(a, b, Writer(parse, svc));
  }

  /** One `data` event on values: the new buffer and the responses written for it. */
  datatype Fed = Fed(buffer: string, responses: seq<Response>)

  function Feed(buffer: string, chunk: string, parse: string -> Parsed, svc: Services): (f: Fed)
    ensures '\n' !in f.buffer
    ensures '\n' !in buffer + chunk ==> f == Fed(buffer + chunk, [])
    ensures |f.responses| == NonBlank(Text.Init(Text.Split(buffer + chunk, '\n')))
  {
    var lines := Text.Split(buffer + chunk, '\n');
    OneResponsePerLine(Text.Init(lines), parse, svc);
    Fed(Text.Last(lines), Responses(Text.Init(lines), parse, svc))
  }

  lemma FeedUnfold(buffer: string, chunk: string, parse: string -> Parsed, svc: Services)
    ensures var lines := Text.Split(buffer + chunk, '\n');
            Feed(buffer, chunk, parse, svc) == Fed(Text.Last(lines), Responses(Text.Init(lines), parse, svc))
  {
  }

  /**
   * Framing does not depend on how the stream is cut into chunks: two chunks leave the same
   * buffer and produce the same responses, in the same order, as their concatenation.
   */
  lemma ChunkBoundariesInvisible(buffer: string, c1: string, c2: string, parse: string -> Parsed, svc: Services)
    ensures var f1 := Feed(buffer, c1, parse, svc);
            var f2 := Feed(f1.buffer, c2, parse, svc);
            var f := Feed(buffer, c1 + c2, parse, svc);
            f2.buffer == f.buffer && f1.responses + f2.responses == f.responses
  {
    var x := buffer + c1;
    assert buffer + (c1 + c2) == x + c2;
    Text.SplitAppendLines(x, c2, '\n');
    var first := Text.Init(Text.Split(x, '\n'));
    var rest := Text.Split(Text.Last(Text.Split(x, '\n')) + c2, '\n');
    ResponsesAppend(first, Text.Init(rest), parse, svc);
  }

  /** The `for` loop over the complete lines: the responses written for them, in order. */
  method AnswerLines(lines: seq<string>, parse: string -> Parsed, svc: Services) returns (written: seq<Response>)
    ensures written == Responses(lines, parse, svc)
  {
    written := [];
    var i := 0;
    while i < |lines|
      invariant 0 <= i <= |lines|
      invariant written == Responses(lines[..i], parse, svc)
    {
      ResponsesSnoc(lines, i, parse, svc);
      var response := HandleLine(lines[i], parse, svc);
      if response.Some? {
        written := written + [response.value];
      }
      i := i + 1;
    }
    assert lines[..i] == lines;
  }

  /** The stdin reader: the unterminated tail of the input so far, and everything written to stdout. */
  class StdioServer {
    var buffer: string
    var output: seq<Response>

    constructor ()
      ensures buffer == "" && output == []
    {
      buffer := "";
      output := [];
    }

    /**
     * The `data` handler: append the chunk, keep the text after the last newline as the new
     * buffer, and answer every complete non-blank line once, in order.
     */
    method OnData(chunk: string, parse: string -> Parsed, svc: Services)
      modifies this
      ensures |old(output)| <= |output| && output[..|old(output)|] == old(output)
      ensures Feed(old(buffer), chunk, parse, svc) == Fed(buffer, output[|old(output)|..])
      ensures '\n' !in buffer
      ensures Text.Join(Text.Init(Text.Split(old(buffer) + chunk, '\n')) + [buffer], "\n") == old(buffer) + chunk
    {
      var text := buffer + chunk;
      var parts := Text.Split(text, '\n');
      var lines := Text.Init(parts);
      Text.JoinSplit(text, '\n');
      Text.InitLast(parts);
      var written := AnswerLines(lines, parse, svc);
      FeedUnfold(buffer, chunk, parse, svc);
      var prev := output;
      buffer := Text.Last(parts);
      output := prev + written;
      assert output[..|prev|] == prev && output[|prev|..] == written;
    }
  }
}

=== FILE: optimize.dfy ===
/**
 * `optimizeText`: choose a language-model provider from environment settings, size the output
 * budget from the input length, send one compression request and validate the reply. The
 * provider itself is an abstract function from the request to its reply.
 */
module Optimize {
  import opened Js
  import Text

  /** `process.env`: variable name to value; an empty value counts as unset, as `||` does. */
  type Env = map<string, string>

  predicate IsSet(env: Env, key: string) {
    key in env && env[key] != ""
  }

  /** `env[k0] || env[k1] || …`: the value of the first key in `keys` that is set. */
  function FirstSet(env: Env, keys: seq<string>): (r: Option<string>)
    ensures r.None? <==> forall k :: k in keys ==> !IsSet(env, k)
    ensures r.Some? ==> exists i :: 0 <= i < |keys| && IsSet(env, keys[i]) && env[keys[i]] == r.value
                          && forall j :: 0 <= j < i ==> !IsSet(env, keys[j])
  {
    if keys == [] then None
    else if IsSet(env, keys[0]) then Some(env[keys[0]])
    else
      var r := FirstSet(env, keys[1..]);
      assert forall k :: k in keys ==> k == keys[0] || k in keys[1..];
      if r.Some? then
        var i :| 0 <= i < |keys[1..]| && IsSet(env, keys[1..][i]) && env[keys[1..][i]] == r.value
                 && forall j :: 0 <= j < i ==> !IsSet(env, keys[1..][j]);
        assert keys[i + 1] == keys[1..][i];
        assert forall j :: 1 <= j < i + 1 ==> keys[j] == keys[1..][j - 1];
        r
      else r
  }

  function GetOr(o: Option<string>, default: string): string {
    if o.Some? then o.value else default
  }

  datatype Provider = OpenRouter | OpenAI | Anthropic | Ollama

  /**
   * The provider name: `USER_PREFERRED_PROVIDER`, else `AI_PROVIDER`, lower-cased, else
   * "openrouter". A set value is non-empty, so its lower-cased form never falls through to
   * the default.
   */
  function ProviderName(env: Env): (r: string)
    ensures |r| > 0
  {
    match FirstSet(env, ["USER_PREFERRED_PROVIDER", "AI_PROVIDER"])
    case None => "openrouter"
    case Some(p) => Text.Lower(p)
  }

  /** The `switch` in `getAIClient`: an unrecognised name falls back to OpenRouter. */
  function SelectProvider(name: string): (p: Provider)
    ensures name in ["openrouter", "openai", "anthropic", "ollama"] ==> Label(p) == name
    ensures name !in ["openrouter", "openai", "anthropic", "ollama"] ==> p == OpenRouter
  {
    if name == "openrouter" then OpenRouter
    else if name == "openai" then OpenAI
    else if name == "anthropic" then Anthropic
    else if name == "ollama" then Ollama
    else OpenRouter
  }

  /** The `provider` label a client carries and a successful result reports. */
  function Label(p: Provider): string {
    match p
    case OpenRouter => "openrouter"
    case OpenAI => "openai"
    case Anthropic => "anthropic"
    case Ollama => "ollama"
  }

  /** Only the key-based providers have a key variable; Ollama is resolved without a key. */
  function KeyVariable(p: Provider): string
    requires p != Ollama
  {
    match p
    case OpenRouter => "OPENROUTER_API_KEY"
    case OpenAI => "OPENAI_API_KEY"
    case Anthropic => "ANTHROPIC_API_KEY"
  }

  function ModelVariable(p: Provider): string {
    match p
    case OpenRouter => "OPENROUTER_MODEL"
    case OpenAI => "OPENAI_MODEL"
    case Anthropic => "ANTHROPIC_MODEL"
    case Ollama => "OLLAMA_MODEL"
  }

  function DefaultModel(p: Provider): string {
    match p
    case OpenRouter => "meta-llama/llama-4-maverick:free"
    case OpenAI => "gpt-4o-mini"
    case Anthropic => "claude-3-haiku-20240307"
    case Ollama => "llama2"
  }

  /** How the key-based resolvers' messages name their provider. */
  function Title(p: Provider): string
    requires p != Ollama
  {
    match p
    case OpenRouter => "OpenRouter"
    case OpenAI => "OpenAI"
    case Anthropic => "Anthropic"
  }

  /** The message of the error a key-based resolver throws when no key is configured. */
  function NoKeyMessage(p: Provider): string
    requires p != Ollama
  {
    "No " + Title(p) + " API key found. Set " + KeyVariable(p) + " or AI_API_KEY in your .env file"
  }

  const OllamaMessage := "Ollama integration not fully implemented yet. Please use openrouter, openai, or anthropic for now."
  const SystemPrompt := "You are a text compression expert. Your ONLY job is to compress the text to be as SHORT as possible while keeping the core meaning. Rules: 1) Remove filler words 2) Use abbreviations 3) Be extremely concise 4) NO explanations 5) Output ONLY the compressed version, nothing else."
  const NoChoices := "No response choices from AI"
  const NoMessage := "No message in AI response"
  const EmptySummary := "AI returned empty summary"
  const UnsupportedInput := "Unsupported input type"

  /** A configured client: the provider, its credential, model and endpoint. */
  datatype Client = Client(provider: Provider, apiKey: Option<string>, model: string, baseUrl: Option<string>)

  datatype Resolution = Resolved(client: Client) | NoKey(message: string)

  /** The model for a provider: its own variable, then `AI_MODEL`, then the built-in default. */
  function ModelFor(env: Env, p: Provider): string {
    GetOr(FirstSet(env, [ModelVariable(p), "AI_MODEL"]), DefaultModel(p))
  }

  /** The key the three key-based resolvers pick: `USER_API_KEY`, the provider's own key, `AI_API_KEY`. */
  function KeyFor(env: Env, p: Provider): Option<string>
    requires p != Ollama
  {
    FirstSet(env, ["USER_API_KEY", KeyVariable(p), "AI_API_KEY"])
  }

  /** The `get*Client` resolvers: the key-based ones throw without a key; Ollama needs none. */
  function ResolveFor(env: Env, p: Provider): (r: Resolution)
    ensures p == Ollama ==> r.Resolved? && r.client.apiKey.None?
    ensures r.NoKey? ==> p != Ollama && r.message == NoKeyMessage(p)
    ensures r.Resolved? ==> r.client.provider == p && r.client.model == ModelFor(env, p)
                            && (r.client.baseUrl.None? <==> p == OpenAI)
  {
    match p
    case Ollama =>
      Resolved(Client(Ollama, None, ModelFor(env, Ollama),
                      Some(GetOr(FirstSet(env, ["OLLAMA_BASE_URL"]), "http://localhost:11434"))))
    case _ =>
      match KeyFor(env, p)
      case None => NoKey(NoKeyMessage(p))
      case Some(key) =>
        Resolved(Client(p, Some(key), ModelFor(env, p),
                        if p == OpenRouter then Some("https://openrouter.ai/api/v1")
                        else if p == Anthropic then Some("https://api.anthropic.com/v1/messages")
                        else None))
  }

  /** `getAIClient`: resolve the client of the selected provider. */
  function ResolveClient(env: Env): (r: Resolution)
    ensures r.Resolved? ==> r.client.provider == SelectProvider(ProviderName(env))
    ensures r.NoKey? ==> SelectProvider(ProviderName(env)) != Ollama
                         && r.message == NoKeyMessage(SelectProvider(ProviderName(env)))
  {
    ResolveFor(env, SelectProvider(ProviderName(env)))
  }

  /** `Math.ceil(len / 4)`: the least whole number of tokens covering `len` characters at four a token. */
  function InputTokens(len: nat): (t: nat)
    ensures 4 * t >= len && 4 * t < len + 4
  {
    (len + 3) / 4
  }

  /**
   * `Math.max(20, Math.floor(inputTokens * 0.5))`: half the input estimate, never below 20,
   * and never above the larger of 20 and the input estimate.
   */
  function TargetTokens(len: nat): (r: nat)
    ensures r >= 20
    ensures r <= if InputTokens(len) > 20 then InputTokens(len) else 20
    ensures r == 20 || 2 * r <= InputTokens(len) <= 2 * r + 1
    ensures InputTokens(len) >= 42 ==> r > 20
  {
    var half := InputTokens(len) / 2;
    if half > 20 then half else 20
  }

  /** The completion request sent to the provider (temperature is left out). */
  datatype ChatRequest = ChatRequest(client: Client, system: string, user: string, maxTokens: nat)

  function UserPrompt(target: nat, input: string): string {
    "Compress this to maximum " + Text.NatToString(target) + " tokens:\n\n" + input
  }

  /** The request for `input`: the system prompt, the budgeted user prompt ending in the whole input. */
  function BuildRequest(c: Client, input: string): (r: ChatRequest)
    ensures r.client == c && r.system == SystemPrompt
    ensures r.maxTokens == TargetTokens(|input|) && r.maxTokens >= 20
    ensures Text.EndsWith(r.user, input)
  {
    var u := UserPrompt(TargetTokens(|input|), input);
    assert u[|u| - |input|..] == input;
    ChatRequest(c, SystemPrompt, u, TargetTokens(|input|))
  }

  /** A choice's `message`, holding `content` that may be null. */
  datatype Message = Message(content: Option<string>)
  datatype Choice = Choice(message: Option<Message>)

  /** What the provider call does: throw with a message, or return a completion whose `choices` may be absent. */
  datatype Reply = Threw(message: string) | Completion(choices: Option<seq<Choice>>)

  /** The value `optimizeText` resolves to (the floating-point `compression_ratio` is left out). */
  datatype Result =
    | Summary(summary: string, originalLength: nat, compressedLength: nat, provider: string, model: string)
    | Error(error: string)

  /** The content of the first choice, when the reply has one. */
  function FirstContent(reply: Reply): Option<string> {
    if reply.Completion? && reply.choices.Some? && |reply.choices.value| > 0
       && reply.choices.value[0].message.Some?
    then reply.choices.value[0].message.value.content
    else None
  }

  /**
   * The checks after the provider call. Each malformed reply has its own error; a well-formed
   * one yields the trimmed content, which is non-empty and neither starts nor ends with
   * whitespace, together with the input length and its own length.
   */
  function ValidateReply(reply: Reply, input: string, c: Client): (r: Result)
    ensures reply.Threw? ==> r == Error(reply.message)
    ensures reply.Completion? && (reply.choices.None? || reply.choices.value == []) ==> r == Error(NoChoices)
    ensures (reply.Completion? && reply.choices.Some? && reply.choices.value != []
             && reply.choices.value[0].message.None?) ==> r == Error(NoMessage)
    ensures r.Summary? <==> FirstContent(reply).Some? && !Text.AllWhitespace(FirstContent(reply).value)
    ensures r.Summary? ==> r.summary == Text.Trim(FirstContent(reply).value)
                           && r.summary != [] && !Text.IsWhitespace(r.summary[0])
                           && !Text.IsWhitespace(r.summary[|r.summary| - 1])
                           && r.originalLength == |input| && r.compressedLength == |r.summary|
                           && r.compressedLength <= |FirstContent(reply).value|
                           && r.provider == Label(c.provider) && r.model == c.model
    ensures (r.Error? && reply.Completion? && reply.choices.Some? && reply.choices.value != []
             && reply.choices.value[0].message.Some?) ==> r.error == EmptySummary
  {
    match reply
    case Threw(m) => Error(m)
    case Completion(choices) =>
      if choices.None? || |choices.value| == 0 then Error(NoChoices)
      else if choices.value[0].message.None? then Error(NoMessage)
      else
        var content := choices.value[0].message.value.content;
        if content.None? then Error(EmptySummary)
        else
          var summary := Text.Trim(content.value);
          if summary == [] then Error(EmptySummary)
          else Summary(summary, |input|, |summary|, Label(c.provider), c.model)
  }

  /**
   * `optimizeText(input)`: never throws. A non-string input is refused before any provider is
   * resolved; a missing key and the Ollama stub become errors; otherwise one request is sent
   * and the reply validated.
   */
  function OptimizeText(input: Value, env: Env, send: ChatRequest -> Reply): (r: Result)
    ensures !input.Str? ==> r == Error(UnsupportedInput)
    ensures r.Summary? ==> input.Str? && r.originalLength == |input.str|
                           && r.compressedLength == |r.summary| && r.summary != []
    ensures input.Str? && SelectProvider(ProviderName(env)) == Ollama ==> r == Error(OllamaMessage)
    ensures input.Str? && ResolveClient(env).NoKey? ==> r == Error(ResolveClient(env).message)
    ensures input.Str? && ResolveClient(env).Resolved? && ResolveClient(env).client.provider != Ollama ==>
              var c := ResolveClient(env).client;
              r == ValidateReply(send(BuildRequest(c, input.str)), input.str, c)
  {
    if !input.Str? then Error(UnsupportedInput)
    else
      match ResolveClient(env)
      case NoKey(message) => Error(message)
      case Resolved(c) =>
        if c.provider == Ollama then Error(OllamaMessage)
        else ValidateReply(send(BuildRequest(c, input.str)), input.str, c)
  }

  /**
   * A string input is summarized exactly when a key-based provider resolves and the first
   * choice's content of its reply to the budgeted request trims to something non-empty.
   */
  lemma OptimizeSucceedsIff(s: string, env: Env, send: ChatRequest -> Reply)
    ensures OptimizeText(Str(s), env, send).Summary? <==>
              && ResolveClient(env).Resolved? && ResolveClient(env).client.provider != Ollama
              && var reply := send(BuildRequest(ResolveClient(env).client, s));
                 FirstContent(reply).Some? && !Text.AllWhitespace(FirstContent(reply).value)
  {
  }

  /** The provider name follows `USER_PREFERRED_PROVIDER`, then `AI_PROVIDER`, then the default. */
  lemma ProviderPrecedence(env: Env)
    ensures IsSet(env, "USER_PREFERRED_PROVIDER") ==> ProviderName(env) == Text.Lower(env["USER_PREFERRED_PROVIDER"])
    ensures !IsSet(env, "USER_PREFERRED_PROVIDER") && IsSet(env, "AI_PROVIDER")
            ==> ProviderName(env) == Text.Lower(env["AI_PROVIDER"])
    ensures !IsSet(env, "USER_PREFERRED_PROVIDER") && !IsSet(env, "AI_PROVIDER")
            ==> SelectProvider(ProviderName(env)) == OpenRouter
  {
  }

  lemma FirstSetCons(env: Env, k: string, rest: seq<string>)
    ensures FirstSet(env, [k] + rest) == if IsSet(env, k) then Some(env[k]) else FirstSet(env, rest)
  {
    assert ([k] + rest)[1..] == rest;
  }

  /**
   * For the three key-based providers, the key is the first of `USER_API_KEY`, the provider's
   * own key and `AI_API_KEY`; with none of them the result is the error naming the provider.
   */
  lemma KeyPrecedence(env: Env, p: Provider)
    requires p != Ollama
    ensures ResolveFor(env, p).NoKey? <==>
              (!IsSet(env, "USER_API_KEY") && !IsSet(env, KeyVariable(p)) && !IsSet(env, "AI_API_KEY"))
    ensures ResolveFor(env, p).NoKey? ==> ResolveFor(env, p).message == NoKeyMessage(p)
    ensures ResolveFor(env, p).Resolved? ==>
              ResolveFor(env, p).client.provider == p &&
              ResolveFor(env, p).client.apiKey ==
                Some(if IsSet(env, "USER_API_KEY") then env["USER_API_KEY"]
                     else if IsSet(env, KeyVariable(p)) then env[KeyVariable(p)]
                     else env["AI_API_KEY"])
  {
    FirstSetCons(env, "USER_API_KEY", [KeyVariable(p), "AI_API_KEY"]);
    FirstSetCons(env, KeyVariable(p), ["AI_API_KEY"]);
    FirstSetCons(env, "AI_API_KEY", []);
    assert ["USER_API_KEY", KeyVariable(p), "AI_API_KEY"] == ["USER_API_KEY"] + [KeyVariable(p), "AI_API_KEY"];
    assert [KeyVariable(p), "AI_API_KEY"] == [KeyVariable(p)] + ["AI_API_KEY"];
    assert ["AI_API_KEY"] == ["AI_API_KEY"] + [];
  }

  /** The model follows the provider's own variable, then `AI_MODEL`, then the built-in default. */
  lemma ModelPrecedence(env: Env, p: Provider)
    ensures IsSet(env, ModelVariable(p)) ==> ModelFor(env, p) == env[ModelVariable(p)]
    ensures !IsSet(env, ModelVariable(p)) && IsSet(env, "AI_MODEL") ==> ModelFor(env, p) == env["AI_MODEL"]
    ensures !IsSet(env, ModelVariable(p)) && !IsSet(env, "AI_MODEL") ==> ModelFor(env, p) == DefaultModel(p)
  {
  }

  /** Without any key the call is answered with the provider's error and the provider is never asked. */
  lemma NoKeyIsError(s: string, env: Env, send: ChatRequest -> Reply)
    requires SelectProvider(ProviderName(env)) != Ollama
    requires !IsSet(env, "USER_API_KEY") && !IsSet(env, "AI_API_KEY")
    requires !IsSet(env, KeyVariable(SelectProvider(ProviderName(env))))
    ensures OptimizeText(Str(s), env, send) == Error(NoKeyMessage(SelectProvider(ProviderName(env))))
  {
    KeyPrecedence(env, SelectProvider(ProviderName(env)));
  }
}

=== FILE: repo_summary.dfy ===
/**
 * `getRepoSummary`: one text made of the summaries found at the top level of `summaries/`,
 * as `<entry name>: <summary>` blocks separated by blank lines, or a fixed sentence when there
 * is nothing to show.
 */
module RepoSummary {
  import opened Js
  import Text
  import Optimize
  import Summarizer

  const Sentinel := "No repository summaries available yet."

  /** What `fs.readJson` gives for an entry: its `summary` property, or a failure to read or parse. */
  datatype Read = Parsed(summary: Value) | Unreadable

  /** One name from `fs.readdir("summaries")` (top level only) and what reading it gives. */
  datatype Entry = Entry(name: string, read: Read)

  /** An entry adds a block when it is a `.json` file other than the cache and has a truthy `summary`. */
  predicate Contributes(e: Entry) {
    Text.EndsWith(e.name, ".json") && e.name != "_cache.json" && e.read.Parsed? && Truthy(e.read.summary)
  }

  function Block(e: Entry): string
    requires e.read.Parsed?
  {
    e.name + ": " + Display(e.read.summary)
  }

  /** The `allSummaries` array after the loop has visited every entry of `listing`, in order. */
  function Blocks(listing: seq<Entry>): (r: seq<string>)
    ensures |r| <= |listing|
  {
    if listing == [] then []
    else
      var last := listing[|listing| - 1];
      Blocks(listing[..|listing| - 1]) + (if Contributes(last) then [Block(last)] else [])
  }

  /** The whole result, given the listing of `summaries/` or `None` when the directory is absent. */
  function RepoSummary(dir: Option<seq<Entry>>): (r: string)
    ensures dir.None? ==> r == Sentinel
    ensures dir.Some? && Blocks(dir.value) != [] ==> Text.StartsWith(r, Blocks(dir.value)[0])
  {
    if dir.None? then Sentinel
    else
      var blocks := Blocks(dir.value);
      if |blocks| > 0 then
        Text.JoinStartsWithFirst(blocks, "\n\n");
        Text.Join(blocks, "\n\n")
      else Sentinel
  }

  /** `getRepoSummary()`: the loop over the listing computes `RepoSummary`. */
  method GetRepoSummary(dir: Option<seq<Entry>>) returns (text: string)
    ensures text == RepoSummary(dir)
  {
    if dir.None? {
      return Sentinel;
    }
    var files := dir.value;
    var allSummaries: seq<string> := [];
    var i := 0;
    while i < |files|
      invariant 0 <= i <= |files|
      invariant allSummaries == Blocks(files[..i])
    {
      var f := files[i];
      assert files[..i + 1][..i] == files[..i];
      if Contributes(f) {
        allSummaries := allSummaries + [Block(f)];
      }
      i := i + 1;
    }
    assert files[..i] == files;
    text := if |allSummaries| > 0 then Text.Join(allSummaries, "\n\n") else Sentinel;
  }

  /** The blocks of two listings one after the other are the blocks of each, in order. */
  lemma {:induction false} BlocksAppend(a: seq<Entry>, b: seq<Entry>)
    ensures Blocks(a + b) == Blocks(a) + Blocks(b)
    decreases |b|
  {
    if b == [] {
      assert a + b == a;
    } else {
      var b' := b[..|b| - 1];
      assert (a + b)[..|a + b| - 1] == a + b';
      BlocksAppend(a, b');
    }
  }

  /**
   * An unreadable entry is skipped and the entries after it are still read: it contributes
   * nothing and takes nothing away.
   */
  lemma SkipUnreadable(a: seq<Entry>, name: string, b: seq<Entry>)
    ensures Blocks(a + [Entry(name, Unreadable)] + b) == Blocks(a) + Blocks(b)
  {
    var u := [Entry(name, Unreadable)];
    assert u[..|u| - 1] == [];
    assert Blocks(u) == [];
    BlocksAppend(a, u);
    BlocksAppend(a + u, b);
  }

  /** A contributing entry's block is in the result's blocks, whatever else is listed. */
  lemma {:induction false} BlockListed(listing: seq<Entry>, i: nat)
    requires i < |listing| && Contributes(listing[i])
    ensures Block(listing[i]) in Blocks(listing)
  {
    assert listing == listing[..i] + [listing[i]] + listing[i + 1..];
    BlocksAppend(listing[..i] + [listing[i]], listing[i + 1..]);
    BlocksAppend(listing[..i], [listing[i]]);
    assert [listing[i]][..0] == [];
  }

  /** Every block comes from a contributing entry of the listing. */
  lemma {:induction false} BlockSource(listing: seq<Entry>, x: string)
    requires x in Blocks(listing)
    ensures exists i :: 0 <= i < |listing| && Contributes(listing[i]) && x == Block(listing[i])
    decreases |listing|
  {
    var init := listing[..|listing| - 1];
    if x in Blocks(init) {
      BlockSource(init, x);
      var i :| 0 <= i < |init| && Contributes(init[i]) && x == Block(init[i]);
      assert listing[i] == init[i];
    }
  }

  /**
   * Every block reaches the returned text, in listing order: block `k` sits where the
   * `"\n\n"` join puts it, so `includes` finds it, and it ends before block `k + 1` begins.
   */
  lemma EveryBlockShown(listing: seq<Entry>, k: nat)
    requires k < |Blocks(listing)|
    ensures var blocks := Blocks(listing);
            Text.OccursAt(RepoSummary(Some(listing)), blocks[k], Text.JoinOffset(blocks, "\n\n", k))
    ensures Text.Contains(RepoSummary(Some(listing)), Blocks(listing)[k])
    ensures var blocks := Blocks(listing);
            k + 1 < |blocks| ==>
              Text.JoinOffset(blocks, "\n\n", k) + |blocks[k]| <= Text.JoinOffset(blocks, "\n\n", k + 1)
  {
    var blocks := Blocks(listing);
    assert RepoSummary(Some(listing)) == Text.Join(blocks, "\n\n");
    Text.JoinContains(blocks, "\n\n", k);
    Text.OccursAtContains(RepoSummary(Some(listing)), blocks[k], Text.JoinOffset(blocks, "\n\n", k));
    if k + 1 < |blocks| {
      Text.JoinInOrder(blocks, "\n\n", k, k + 1);
    }
  }

  lemma ColonNotInSentinel()
    ensures forall j :: 0 <= j < |Sentinel| ==> Sentinel[j] != ':'
  {
  }

  /**
   * The fixed sentence comes back exactly when the directory is absent or nothing contributes:
   * a real block always holds ": ", which the sentence does not.
   */
  lemma SentinelExactlyWhenEmpty(dir: Option<seq<Entry>>)
    ensures RepoSummary(dir) == Sentinel <==> dir.None? || Blocks(dir.value) == []
  {
    if dir.Some? && Blocks(dir.value) != [] {
      var blocks := Blocks(dir.value);
      var x := blocks[0];
      BlockSource(dir.value, x);
      var i :| 0 <= i < |dir.value| && Contributes(dir.value[i]) && x == Block(dir.value[i]);
      var e := dir.value[i];
      Text.JoinStartsWithFirst(blocks, "\n\n");
      var joined := Text.Join(blocks, "\n\n");
      assert joined[|e.name|] == ':' by {
        assert joined[..|x|] == x;
        assert x[|e.name|] == ':';
      }
      ColonNotInSentinel();
      assert |e.name| < |Sentinel| ==> Sentinel[|e.name|] != ':';
    }
  }

  /** What the `summary` property of an artifact written by `summarizeFile` reads as. */
  function ArtifactSummary(a: Summarizer.Artifact): Value {
    if a.result.Summary? then Str(a.result.summary) else Missing
  }

  /**
   * `listing` is what `readdir` returns for an artifact store `summaries`: top-level names only,
   * each artifact at the top level listed and read as written; anything else (the cache file,
   * the subdirectories holding nested artifacts) may be listed too.
   */
  ghost predicate ListingOf(listing: seq<Entry>, summaries: map<string, Summarizer.Artifact>) {
    && (forall i :: 0 <= i < |listing| ==> '/' !in listing[i].name)
    && (forall i :: 0 <= i < |listing| && listing[i].name in summaries
          ==> listing[i].read == Parsed(ArtifactSummary(summaries[listing[i].name])))
    && (forall k :: k in summaries && '/' !in k ==> exists i :: 0 <= i < |listing| && listing[i].name == k)
  }

  /** The summary of a file at the repository root does reach the result. */
  lemma RootArtifactVisible(listing: seq<Entry>, summaries: map<string, Summarizer.Artifact>, file: string)
    requires ListingOf(listing, summaries)
    requires '/' !in file && Summarizer.ArtifactPath(file) in summaries
    requires summaries[Summarizer.ArtifactPath(file)].result.Summary?
    requires summaries[Summarizer.ArtifactPath(file)].result.summary != ""
    ensures Summarizer.ArtifactPath(file) + ": " + summaries[Summarizer.ArtifactPath(file)].result.summary
            in Blocks(listing)
    ensures Text.Contains(RepoSummary(Some(listing)),
                          Summarizer.ArtifactPath(file) + ": " + summaries[Summarizer.ArtifactPath(file)].result.summary)
  {
    var k := Summarizer.ArtifactPath(file);
    assert '/' !in k by {
      assert '/' !in Summarizer.ArtifactSuffix;
      assert forall j :: 0 <= j < |k| ==> k[j] == (if j < |file| then file[j] else Summarizer.ArtifactSuffix[j - |file|]);
    }
    var i :| 0 <= i < |listing| && listing[i].name == k;
    assert Text.EndsWith(k, ".json") by {
      assert k[|k| - 5..] == Summarizer.ArtifactSuffix[8..];
    }
    assert k != "_cache.json" by {
      assert |k| >= 13;
    }
    BlockListed(listing, i);
    var x := Block(listing[i]);
    var n :| 0 <= n < |Blocks(listing)| && Blocks(listing)[n] == x;
    EveryBlockShown(listing, n);
  }

  /**
   * The summary of a file in a subdirectory never reaches the result: its artifact is nested,
   * and no top-level entry that contributes is that artifact.
   */
  lemma NestedArtifactHidden(listing: seq<Entry>, summaries: map<string, Summarizer.Artifact>, file: string)
    requires ListingOf(listing, summaries)
    requires '/' in file
    ensures forall i :: 0 <= i < |listing| ==> listing[i].name != Summarizer.ArtifactPath(file)
  {
    var k := Summarizer.ArtifactPath(file);
    assert '/' in k by {
      var j :| 0 <= j < |file| && file[j] == '/';
      assert k[j] == '/';
    }
  }

  /** A repository whose only summarized file sits in `src/` shows no summary at all. */
  lemma OnlyNestedShowsSentinel()
    ensures var a := Summarizer.Artifact("src/a.js", 2500, Optimize.Summary("S", 10000, 1, "openrouter", "m"), 0);
            var summaries := map[Summarizer.ArtifactPath("src/a.js") := a];
            var listing := [Entry("_cache.json", Parsed(Other(true, "[object Object]"))), Entry("src", Unreadable)];
            && ListingOf(listing, summaries)
            && RepoSummary(Some(listing)) == Sentinel
  {
  }
}

=== FILE: summarizer.dfy ===
/**
 * `summarizeFile`: the per-file state machine that keeps the summary artifacts under
 * `summaries/` and the persisted cache in step with the source files. Four outcomes: the
 * source is gone (clean up), its hash is unchanged (nothing to do), it is below the token
 * limit (drop any stale artifact and entry), or it is compressed (write artifact, record hash).
 */
module Summarizer {
  import opened Js
  import Text
  import Optimize
  import Cache

  /** Files estimated below this many tokens are not summarized. */
  const TokenLimit: nat := 2000

  /** `estimateTokens`: the length over four, rounded up. */
  function EstimateTokens(text: string): (t: nat)
    ensures 4 * t >= |text| && 4 * t < |text| + 4
  {
    Optimize.InputTokens(|text|)
  }

  const ArtifactSuffix := ".summary.json"

  /**
   * Where the artifact of `file` lives, relative to `summaries/`: the repository-relative path
   * with `.summary.json` appended, so a file in a subdirectory gets a nested artifact.
   */
  function ArtifactPath(file: string): string {
    file + ArtifactSuffix
  }

  /** Different files never share an artifact. */
  lemma ArtifactPathInjective(f: string, g: string)
    requires ArtifactPath(f) == ArtifactPath(g)
    ensures f == g
  {
    assert f == ArtifactPath(f)[..|f|];
    assert g == ArtifactPath(g)[..|g|];
  }

  /** What `summarizeTextWithAI` resolves to: `optimizeText`'s result, the file and a timestamp. */
  datatype Info = Info(result: Optimize.Result, file: string, timestamp: int)

  /**
   * `summarizeTextWithAI`. `optimizeText` already turns every failure into an error result, so
   * the error is carried in `result` and nothing escapes. The repository-context flag is passed
   * on by the source, but `optimizeText` takes a single parameter and never reads it.
   */
  function SummarizeTextWithAI(content: string, filePath: string, includeRepoContext: bool,
                               env: Optimize.Env, send: Optimize.ChatRequest -> Optimize.Reply,
                               now: int): (info: Info)
    ensures info.file == filePath && info.timestamp == now
    ensures info.result == Optimize.OptimizeText(Str(content), env, send)
    ensures info.result.Summary? ==> info.result.originalLength == |content|
  {
    Info(Optimize.OptimizeText(Str(content), env, send), filePath, now)
  }

  /** The repository-context flag makes no difference to the summary. */
  lemma RepoContextIgnored(content: string, filePath: string, env: Optimize.Env,
                           send: Optimize.ChatRequest -> Optimize.Reply, now: int)
    ensures SummarizeTextWithAI(content, filePath, true, env, send, now)
         == SummarizeTextWithAI(content, filePath, false, env, send, now)
  {
  }

  /** The JSON object written as an artifact: `{file, size_tokens, ...info}`. */
  datatype Artifact = Artifact(file: string, sizeTokens: nat, result: Optimize.Result, timestamp: int)

  /**
   * Everything `summarizeFile` reads or writes: the source files (repository-relative path to
   * content), the artifacts (path under `summaries/` to content) and the cache file.
   */
  datatype Disk = Disk(sources: map<string, string>, summaries: map<string, Artifact>, cache: Cache.CacheFile)

  /** The object `summarizeFile` resolves to: `{changed}` or `{changed, removed}`. */
  datatype Outcome = Outcome(changed: bool, removed: bool)

  datatype Step = Step(disk: Disk, outcome: Outcome)

  /** The cache entry for `file` records the current hash of `text`. */
  predicate Unchanged(m: map<string, Cache.Entry>, file: string, text: string, hash: string -> string) {
    file in m && m[file].hash == hash(text)
  }

  /**
   * One `summarizeFile(file)` call on values. The cache is loaded first (which creates or
   * resets the file); `stamp` and `updated` are the two clock readings the source takes.
   */
  function SummarizeStep(d: Disk, file: string, hash: string -> string, env: Optimize.Env,
                         send: Optimize.ChatRequest -> Optimize.Reply, stamp: int, updated: int): (s: Step)
    ensures s.disk.sources == d.sources && s.disk.cache.Stored?
    ensures s.outcome.removed <==> file !in d.sources
    ensures s.outcome.changed <==> (file in d.sources
                                    && !Unchanged(Cache.Loaded(d.cache), file, d.sources[file], hash)
                                    && EstimateTokens(d.sources[file]) >= TokenLimit)
  {
    var m := Cache.Loaded(d.cache);
    if file !in d.sources then
      Step(Disk(d.sources, d.summaries - {ArtifactPath(file)}, Cache.Stored(m - {file})), Outcome(false, true))
    else
      var text := d.sources[file];
      if Unchanged(m, file, text, hash) then
        Step(Disk(d.sources, d.summaries, Cache.Stored(m)), Outcome(false, false))
      else if EstimateTokens(text) < TokenLimit then
        Step(Disk(d.sources, d.summaries - {ArtifactPath(file)}, Cache.Stored(m - {file})), Outcome(false, false))
      else
        var info := SummarizeTextWithAI(text, file, true, env, send, stamp);
        var artifact := Artifact(file, EstimateTokens(text), info.result, info.timestamp);
        Step(Disk(d.sources, d.summaries[ArtifactPath(file) := artifact],
                  Cache.Stored(m[file := Cache.Entry(hash(text), updated)])),
             Outcome(true, false))
  }

  /** The project directory: its source files, the artifacts under `summaries/` and the cache. */
  class Workspace {
    var sources: map<string, string>
    var summaries: map<string, Artifact>
    const store: Cache.CacheStore
    /** The content hash (SHA-1 in the source), left uninterpreted. */
    const hash: string -> string

    constructor (sources: map<string, string>, summaries: map<string, Artifact>,
                 store: Cache.CacheStore, hash: string -> string)
      ensures this.sources == sources && this.summaries == summaries
      ensures this.store == store && this.hash == hash
    {
      this.sources := sources;
      this.summaries := summaries;
      this.store := store;
      this.hash := hash;
    }

    function State(): Disk
      reads this, store
    {
      Disk(sources, summaries, store.file)
    }

    /** `summarizeFile(file)`: its effect on the directory and its result are those of `SummarizeStep`. */
    method SummarizeFile(file: string, env: Optimize.Env, send: Optimize.ChatRequest -> Optimize.Reply,
                         stamp: int, updated: int) returns (r: Outcome)
      modifies this, store
      ensures SummarizeStep(old(State()), file, hash, env, send, stamp, updated) == Step(State(), r)
    {
      var cache := store.Load();
      if file !in sources {
        // file removed: drop its artifact and its entry
        summaries := summaries - {ArtifactPath(file)};
        cache := cache - {file};
        store.Save(cache);
        return Outcome(false, true);
      }
      var text := sources[file];
      var h := hash(text);
      if file in cache && cache[file].hash == h {
        return Outcome(false, false);
      }
      var tokens := EstimateTokens(text);
      if tokens < TokenLimit {
        // small file: no stale summary may remain
        summaries := summaries - {ArtifactPath(file)};
        cache := cache - {file};
        store.Save(cache);
        return Outcome(false, false);
      }
      var info := SummarizeTextWithAI(text, file, true, env, send, stamp);
      summaries := summaries[ArtifactPath(file) := Artifact(file, tokens, info.result, info.timestamp)];
      cache := cache[file := Cache.Entry(h, updated)];
      store.Save(cache);
      return Outcome(true, false);
    }
  }

  /** A missing source loses its artifact and its cache entry, and the call reports `removed`. */
  lemma MissingSourceCleansUp(d: Disk, file: string, hash: string -> string, env: Optimize.Env,
                              send: Optimize.ChatRequest -> Optimize.Reply, stamp: int, updated: int)
    requires file !in d.sources
    ensures var s := SummarizeStep(d, file, hash, env, send, stamp, updated);
            && s.outcome == Outcome(false, true)
            && ArtifactPath(file) !in s.disk.summaries
            && s.disk.cache.Stored? && file !in s.disk.cache.entries
  {
  }

  /** When the stored hash matches the content, nothing at all changes and nothing is reported. */
  lemma UnchangedIsNoOp(d: Disk, file: string, hash: string -> string, env: Optimize.Env,
                        send: Optimize.ChatRequest -> Optimize.Reply, stamp: int, updated: int)
    requires file in d.sources && Unchanged(Cache.Loaded(d.cache), file, d.sources[file], hash)
    ensures SummarizeStep(d, file, hash, env, send, stamp, updated) == Step(d, Outcome(false, false))
  {
  }

  /** A changed file below the limit loses any stale artifact and entry and reports no change. */
  lemma SmallFileDropsArtifact(d: Disk, file: string, hash: string -> string, env: Optimize.Env,
                               send: Optimize.ChatRequest -> Optimize.Reply, stamp: int, updated: int)
    requires file in d.sources && !Unchanged(Cache.Loaded(d.cache), file, d.sources[file], hash)
    requires |d.sources[file]| <= 4 * (TokenLimit - 1)
    ensures var s := SummarizeStep(d, file, hash, env, send, stamp, updated);
            && s.outcome == Outcome(false, false)
            && ArtifactPath(file) !in s.disk.summaries
            && s.disk.cache.Stored? && file !in s.disk.cache.entries
  {
  }

  /**
   * A changed file at or above the limit is compressed: its artifact names the file, carries
   * the token estimate and whatever `optimizeText` produced (an error included), the cache
   * records the hash of the content, and the call reports a change.
   */
  lemma LargeFileIsCompressed(d: Disk, file: string, hash: string -> string, env: Optimize.Env,
                              send: Optimize.ChatRequest -> Optimize.Reply, stamp: int, updated: int)
    requires file in d.sources && !Unchanged(Cache.Loaded(d.cache), file, d.sources[file], hash)
    requires |d.sources[file]| > 4 * (TokenLimit - 1)
    ensures var s := SummarizeStep(d, file, hash, env, send, stamp, updated);
            var text := d.sources[file];
            && s.outcome == Outcome(true, false)
            && ArtifactPath(file) in s.disk.summaries
            && s.disk.summaries[ArtifactPath(file)]
                 == Artifact(file, EstimateTokens(text), Optimize.OptimizeText(Str(text), env, send), stamp)
            && s.disk.summaries[ArtifactPath(file)].sizeTokens >= TokenLimit
            && s.disk.cache.Stored? && file in s.disk.cache.entries
            && s.disk.cache.entries[file] == Cache.Entry(hash(text), updated)
  {
  }

  /** The limit's boundary: 7996 characters is 1999 tokens (small), 7997 is 2000 (compressed). */
  lemma ThresholdBoundary()
    ensures EstimateTokens(seq(7996, _ => 'x')) == TokenLimit - 1
    ensures EstimateTokens(seq(7997, _ => 'x')) == TokenLimit
  {
  }

  /**
   * A failed compression is still recorded: the artifact carries the error and the cache the
   * new hash, so the same content is not sent again.
   */
  lemma FailureIsCached(d: Disk, file: string, hash: string -> string, env: Optimize.Env,
                        send: Optimize.ChatRequest -> Optimize.Reply, stamp: int, updated: int)
    requires file in d.sources && !Unchanged(Cache.Loaded(d.cache), file, d.sources[file], hash)
    requires EstimateTokens(d.sources[file]) >= TokenLimit
    requires Optimize.OptimizeText(Str(d.sources[file]), env, send).Error?
    ensures var s := SummarizeStep(d, file, hash, env, send, stamp, updated);
            && s.disk.summaries[ArtifactPath(file)].result.Error?
            && Unchanged(Cache.Loaded(s.disk.cache), file, d.sources[file], hash)
  {
  }

  /**
   * Only the entry and the artifact of `file` are touched: every other cache entry, every
   * other artifact and every source file is as before.
   */
  lemma OnlyFileTouched(d: Disk, file: string, hash: string -> string, env: Optimize.Env,
                        send: Optimize.ChatRequest -> Optimize.Reply, stamp: int, updated: int)
    ensures var s := SummarizeStep(d, file, hash, env, send, stamp, updated);
            var m, m' := Cache.Loaded(d.cache), Cache.Loaded(s.disk.cache);
            && s.disk.sources == d.sources
            && (forall g :: g != file ==> (g in m' <==> g in m) && (g in m ==> m'[g] == m[g]))
            && (forall k :: k != ArtifactPath(file) ==>
                  (k in s.disk.summaries <==> k in d.summaries)
                  && (k in d.summaries ==> s.disk.summaries[k] == d.summaries[k]))
  {
  }

  /**
   * Idempotence: a second call on the same content changes nothing more and reports no
   * change, whatever the provider or the clock say the second time.
   */
  lemma {:induction false} SecondCallSettles(d: Disk, file: string, hash: string -> string,
                                             env: Optimize.Env, send: Optimize.ChatRequest -> Optimize.Reply,
                                             stamp: int, updated: int,
                                             env': Optimize.Env, send': Optimize.ChatRequest -> Optimize.Reply,
                                             stamp': int, updated': int)
    ensures var s := SummarizeStep(d, file, hash, env, send, stamp, updated);
            var s' := SummarizeStep(s.disk, file, hash, env', send', stamp', updated');
            s'.disk == s.disk && !s'.outcome.changed && s'.outcome.removed == s.outcome.removed
  {
    var s := SummarizeStep(d, file, hash, env, send, stamp, updated);
    var m := Cache.Loaded(d.cache);
    if file in d.sources && !Unchanged(m, file, d.sources[file], hash) {
      if EstimateTokens(d.sources[file]) < TokenLimit {
        assert (m - {file}) - {file} == m - {file};
        assert (d.summaries - {ArtifactPath(file)}) - {ArtifactPath(file)} == d.summaries - {ArtifactPath(file)};
      } else {
        assert Unchanged(Cache.Loaded(s.disk.cache), file, d.sources[file], hash);
      }
    } else if file !in d.sources {
      assert (m - {file}) - {file} == m - {file};
      assert (d.summaries - {ArtifactPath(file)}) - {ArtifactPath(file)} == d.summaries - {ArtifactPath(file)};
    }
  }

  /** Every cache entry has its artifact. */
  ghost predicate EntriesBacked(d: Disk) {
    forall f :: f in Cache.Loaded(d.cache) ==> ArtifactPath(f) in d.summaries
  }

  /** Cache and artifacts agree both ways: an entry exactly for each file that has an artifact. */
  ghost predicate Synced(d: Disk) {
    && (forall f :: f in Cache.Loaded(d.cache) <==> ArtifactPath(f) in d.summaries)
    && (forall k :: k in d.summaries ==> Text.EndsWith(k, ArtifactSuffix))
  }

  /** Every summarize call keeps each cache entry backed by an artifact, even across a reset. */
  lemma {:induction false} StepKeepsEntriesBacked(d: Disk, file: string, hash: string -> string,
                                                  env: Optimize.Env, send: Optimize.ChatRequest -> Optimize.Reply,
                                                  stamp: int, updated: int)
    requires EntriesBacked(d)
    ensures EntriesBacked(SummarizeStep(d, file, hash, env, send, stamp, updated).disk)
  {
    var s := SummarizeStep(d, file, hash, env, send, stamp, updated);
    forall f | f in Cache.Loaded(s.disk.cache)
      ensures ArtifactPath(f) in s.disk.summaries
    {
      if f != file {
        if ArtifactPath(f) == ArtifactPath(file) { ArtifactPathInjective(f, file); }
      }
    }
  }

  /** Every summarize call keeps cache and artifacts in agreement both ways. */
  lemma {:induction false} StepKeepsSynced(d: Disk, file: string, hash: string -> string,
                                           env: Optimize.Env, send: Optimize.ChatRequest -> Optimize.Reply,
                                           stamp: int, updated: int)
    requires Synced(d)
    ensures Synced(SummarizeStep(d, file, hash, env, send, stamp, updated).disk)
  {
    var s := SummarizeStep(d, file, hash, env, send, stamp, updated);
    forall f
      ensures f in Cache.Loaded(s.disk.cache) <==> ArtifactPath(f) in s.disk.summaries
    {
      if f != file && ArtifactPath(f) == ArtifactPath(file) { ArtifactPathInjective(f, file); }
    }
    forall k | k in s.disk.summaries
      ensures Text.EndsWith(k, ArtifactSuffix)
    {
      if k == ArtifactPath(file) {
        assert k[|k| - |ArtifactSuffix|..] == ArtifactSuffix;
      }
    }
  }

  /**
   * A reset of a corrupt cache loses entries whose artifacts stay behind: agreement both ways
   * does not survive it, though every remaining entry stays backed.
   */
  lemma CorruptResetOrphansArtifacts(hash: string -> string, env: Optimize.Env,
                                     send: Optimize.ChatRequest -> Optimize.Reply)
    ensures var a := Artifact("a.js", 2000, Optimize.Error("x"), 0);
            var d := Disk(map["b.js" := "b"], map[ArtifactPath("a.js") := a], Cache.Corrupt);
            var s := SummarizeStep(d, "b.js", hash, env, send, 0, 0);
            && ArtifactPath("a.js") in s.disk.summaries
            && "a.js" !in Cache.Loaded(s.disk.cache)
            && !Synced(s.disk)
  {
    var a := Artifact("a.js", 2000, Optimize.Error("x"), 0);
    var d := Disk(map["b.js" := "b"], map[ArtifactPath("a.js") := a], Cache.Corrupt);
    var s := SummarizeStep(d, "b.js", hash, env, send, 0, 0);
    assert EstimateTokens("b") < TokenLimit;
    assert ArtifactPath("a.js")[0] != ArtifactPath("b.js")[0];
    assert ArtifactPath("a.js") in s.disk.summaries;
    assert Cache.Loaded(s.disk.cache) == map[];
  }
}

=== FILE: text.dfy ===
/**
 * The JavaScript string built-ins the core relies on: `split` on a one-character separator,
 * `join`, `trim`, `toLowerCase`, `startsWith`/`endsWith`/`includes` and number formatting.
 * Strings are sequences of Dafny characters, so a length counts characters, not the UTF-16
 * code units JavaScript counts.
 */
module Text {

  /** Index of the first occurrence of `c` in `s`. */
  function IndexOf(s: string, c: char): (i: nat)
    requires c in s
    ensures i < |s| && s[i] == c && c !in s[..i]
  {
    if s[0] == c then 0
    else
      var j := IndexOf(s[1..], c);
      assert s[..j + 1] == [s[0]] + s[1..][..j];
      1 + j
  }

  /** The first occurrence is the only one with no earlier occurrence. */
  lemma IndexOfUnique(s: string, c: char, j: nat)
    requires j < |s| && s[j] == c && c !in s[..j]
    ensures IndexOf(s, c) == j
  {
  }

  /**
   * `s.split(sep)` for a one-character separator: the pieces between separators, in order.
   * There is always at least one piece (`"".split("\n")` is `[""]`), and no piece holds `sep`.
   */
  function Split(s: string, sep: char): (r: seq<string>)
    ensures |r| >= 1
    ensures forall k :: 0 <= k < |r| ==> sep !in r[k]
    decreases |s|
  {
    if sep !in s then [s]
    else
      var i := IndexOf(s, sep);
      [s[..i]] + Split(s[i + 1..], sep)
  }

  /** A text that does not start with the separator has a first piece starting with its first character. */
  lemma SplitFirst(s: string, sep: char)
    requires s != [] && s[0] != sep
    ensures Split(s, sep)[0] != [] && Split(s, sep)[0][0] == s[0]
  {
  }

  /** `parts.join(sep)`. */
  function Join(parts: seq<string>, sep: string): string {
    if |parts| == 0 then ""
    else if |parts| == 1 then parts[0]
    else parts[0] + sep + Join(parts[1..], sep)
  }

  /** `p` occurs in `s` starting at index `i`. */
  predicate OccursAt(s: string, p: string, i: int) {
    0 <= i && i + |p| <= |s| && s[i..i + |p|] == p
  }

  /** An occurrence at a known index is found by `includes`. */
  lemma {:induction false} OccursAtContains(s: string, p: string, i: nat)
    requires OccursAt(s, p, i)
    ensures Contains(s, p)
    decreases i
  {
    if i == 0 {
      assert s[..|p|] == s[i..i + |p|];
    } else {
      assert s[1..][i - 1..i - 1 + |p|] == s[i..i + |p|];
      OccursAtContains(s[1..], p, i - 1);
    }
  }

  lemma {:induction false} JoinStartsWithFirst(parts: seq<string>, sep: string)
    requires |parts| > 0
    ensures StartsWith(Join(parts, sep), parts[0])
  {
    if |parts| > 1 {
      assert Join(parts, sep) == parts[0] + (sep + Join(parts[1..], sep));
    }
  }

  /** Joining two non-empty runs of parts puts one separator between their joins. */
  lemma {:induction false} JoinAppend(a: seq<string>, b: seq<string>, sep: string)
    requires a != [] && b != []
    ensures Join(a + b, sep) == Join(a, sep) + sep + Join(b, sep)
    decreases |a|
  {
    if |a| == 1 {
      assert (a + b)[1..] == b;
    } else {
      assert (a + b)[1..] == a[1..] + b;
      JoinAppend(a[1..], b, sep);
    }
  }

  /** Where `parts[k]` begins in `Join(parts, sep)`: after the earlier parts and their separators. */
  function JoinOffset(parts: seq<string>, sep: string, k: nat): nat
    requires k <= |parts|
  {
    |Join(parts[..k], sep)| + (if k > 0 then |sep| else 0)
  }

  /** `join` loses no part: each part occurs in the joined text at its offset. */
  lemma JoinContains(parts: seq<string>, sep: string, k: nat)
    requires k < |parts|
    ensures OccursAt(Join(parts, sep), parts[k], JoinOffset(parts, sep, k))
  {
    JoinStartsWithFirst(parts[k..], sep);
    var tail := Join(parts[k..], sep);
    assert tail[..|parts[k]|] == parts[k];
    if k == 0 {
      assert parts[k..] == parts;
    } else {
      var head := Join(parts[..k], sep);
      assert parts == parts[..k] + parts[k..];
      JoinAppend(parts[..k], parts[k..], sep);
      var i := |head| + |sep|;
      assert (head + sep + tail)[i..i + |parts[k]|] == tail[..|parts[k]|];
    }
  }

  /** The parts appear in the joined text in their own order, none overlapping the next. */
  lemma JoinInOrder(parts: seq<string>, sep: string, j: nat, k: nat)
    requires j < k < |parts|
    ensures JoinOffset(parts, sep, j) + |parts[j]| <= JoinOffset(parts, sep, k)
  {
    JoinContains(parts[..k], sep, j);
    assert parts[..k][..j] == parts[..j];
  }

  /** Splitting loses nothing: joining the pieces with the separator gives the text back. */
  lemma {:induction false} JoinSplit(s: string, sep: char)
    ensures Join(Split(s, sep), [sep]) == s
    decreases |s|
  {
    if sep in s {
      var i := IndexOf(s, sep);
      var rest := s[i + 1..];
      JoinSplit(rest, sep);
      assert Split(s, sep) == [s[..i]] + Split(rest, sep);
      assert s == s[..i] + [sep] + rest;
    }
  }

  function Init<T>(xs: seq<T>): seq<T>
    requires |xs| >= 1
  {
    xs[..|xs| - 1]
  }

  function Last<T>(xs: seq<T>): T
    requires |xs| >= 1
  {
    xs[|xs| - 1]
  }

  lemma InitLast<T>(xs: seq<T>)
    requires |xs| >= 1
    ensures Init(xs) + [Last(xs)] == xs
  {
  }

  /**
   * Splitting a concatenation: the complete pieces of `x` stay as they are, and its last,
   * unterminated piece is continued by `y`.
   */
  lemma {:induction false} SplitAppend(x: string, y: string, sep: char)
    ensures Split(x + y, sep) == Init(Split(x, sep)) + Split(Last(Split(x, sep)) + y, sep)
    decreases |x|
  {
    if sep in x {
      var i := IndexOf(x, sep);
      var head, rest := x[..i], x[i + 1..];
      var tail := Split(rest, sep);
      assert Split(x + y, sep) == [head] + Split(rest + y, sep) by {
        assert (x + y)[..i] == head && (x + y)[i] == sep && (x + y)[i + 1..] == rest + y;
        SplitAt(x + y, sep, i);
      }
      assert Init(Split(x, sep)) == [head] + Init(tail) && Last(Split(x, sep)) == Last(tail) by {
        SplitAt(x, sep, i);
        InitLastAppend([head], tail);
      }
      SplitAppend(rest, y, sep);
    } else {
      assert Init(Split(x, sep)) == [];
    }
  }

  /** Splitting at the first separator, at index `i`: the piece before it, then the split of the rest. */
  lemma SplitAt(s: string, sep: char, i: nat)
    requires i < |s| && s[i] == sep && sep !in s[..i]
    ensures Split(s, sep) == [s[..i]] + Split(s[i + 1..], sep)
  {
    assert sep in s;
    IndexOfUnique(s, sep, i);
  }

  lemma InitLastAppend<T>(a: seq<T>, b: seq<T>)
    requires |b| >= 1
    ensures Init(a + b) == a + Init(b) && Last(a + b) == Last(b)
  {
    assert (a + b)[..|a + b| - 1] == a + b[..|b| - 1];
  }

  /**
   * What `SplitAppend` means for a line reader: the complete lines of `x + y` are those of `x`
   * followed by those of the tail of `x` continued by `y`, and both leave the same tail.
   */
  lemma SplitAppendLines(x: string, y: string, sep: char)
    ensures var rest := Split(Last(Split(x, sep)) + y, sep);
            && Init(Split(x + y, sep)) == Init(Split(x, sep)) + Init(rest)
            && Last(Split(x + y, sep)) == Last(rest)
  {
    SplitAppend(x, y, sep);
    var first := Init(Split(x, sep));
    var rest := Split(Last(Split(x, sep)) + y, sep);
    assert Split(x + y, sep) == first + rest;
    assert (first + rest)[..|first + rest| - 1] == first + Init(rest);
  }

  /**
   * The characters `String.prototype.trim` removes: JavaScript's WhiteSpace (tab, vertical tab,
   * form feed, space, no-break space, the byte order mark and the Unicode space separators) and
   * its LineTerminator (line feed, carriage return, line and paragraph separators).
   */
  predicate IsWhitespace(c: char) {
    c == '\t' || c == '\n' || c == '\U{000B}' || c == '\U{000C}' || c == '\r' || c == ' '
    || c == '\U{00A0}' || c == '\U{1680}' || ('\U{2000}' <= c <= '\U{200A}')
    || c == '\U{2028}' || c == '\U{2029}' || c == '\U{202F}' || c == '\U{205F}'
    || c == '\U{3000}' || c == '\U{FEFF}'
  }

  predicate AllWhitespace(s: string) {
    forall k :: 0 <= k < |s| ==> IsWhitespace(s[k])
  }

  lemma AllWhitespaceAppend(a: string, b: string)
    requires AllWhitespace(a) && AllWhitespace(b)
    ensures AllWhitespace(a + b)
  {
    assert forall k :: 0 <= k < |a + b| ==> (a + b)[k] == if k < |a| then a[k] else b[k - |a|];
  }

  /** `s.trimStart()`: the suffix left after dropping every leading whitespace character. */
  function TrimStart(s: string): (r: string)
    ensures |r| <= |s| && r == s[|s| - |r|..]
    ensures r == [] || !IsWhitespace(r[0])
    ensures AllWhitespace(s[..|s| - |r|])
  {
    if s != [] && IsWhitespace(s[0]) then
      var r := TrimStart(s[1..]);
      assert s[..|s| - |r|] == [s[0]] + s[1..][..|s| - 1 - |r|];
      AllWhitespaceAppend([s[0]], s[1..][..|s| - 1 - |r|]);
      r
    else s
  }

  /** `s.trimEnd()`: the prefix left after dropping every trailing whitespace character. */
  function TrimEnd(s: string): (r: string)
    ensures |r| <= |s| && r == s[..|r|]
    ensures r == [] || !IsWhitespace(r[|r| - 1])
    ensures AllWhitespace(s[|r|..])
  {
    if s != [] && IsWhitespace(s[|s| - 1]) then
      var r := TrimEnd(s[..|s| - 1]);
      assert s[|r|..] == s[..|s| - 1][|r|..] + [s[|s| - 1]];
      AllWhitespaceAppend(s[..|s| - 1][|r|..], [s[|s| - 1]]);
      r
    else s
  }

  /**
   * `s.trim()`: the text between the leading and the trailing whitespace. It is empty exactly
   * when `s` is all whitespace, and otherwise begins and ends with a non-whitespace character;
   * `TrimIsSlice` states where in `s` it lies.
   */
  function Trim(s: string): (r: string)
    ensures |r| <= |s|
    ensures r == [] <==> AllWhitespace(s)
    ensures r != [] ==> !IsWhitespace(r[0]) && !IsWhitespace(r[|r| - 1])
  {
    TrimEnds(s);
    TrimEnd(TrimStart(s))
  }

  /**
   * What `trimStart` and then `trimEnd` leave: empty exactly on all-whitespace input, and
   * otherwise no whitespace at either end.
   */
  lemma TrimEnds(s: string)
    ensures var r := TrimEnd(TrimStart(s));
            && |r| <= |s|
            && (r == [] <==> AllWhitespace(s))
            && (r != [] ==> !IsWhitespace(r[0]) && !IsWhitespace(r[|r| - 1]))
  {
    var t := TrimStart(s);
    var r := TrimEnd(t);
    var i := |s| - |t|;
    if r == [] {
      assert t[|r|..] == t;
      assert t == [];
      assert s[..i] == s;
    } else {
      assert r[0] == t[0] && s[i] == t[0];
    }
  }

  /** `s.trim()` is `s` with a whitespace prefix and a whitespace suffix cut off, and nothing else. */
  lemma TrimIsSlice(s: string)
    ensures var r := Trim(s);
            exists i :: 0 <= i && i + |r| <= |s| && r == s[i..i + |r|]
                        && AllWhitespace(s[..i]) && AllWhitespace(s[i + |r|..])
  {
    var t := TrimStart(s);
    var r := TrimEnd(t);
    assert r == Trim(s);
    TrimMiddle(s, t, r, |s| - |t|);
  }

  /**
   * Given what `TrimStart` and `TrimEnd` promise, the trimmed text is the slice of `s` between
   * its leading whitespace, which ends at `i`, and a whitespace suffix.
   */
  lemma TrimMiddle(s: string, t: string, r: string, i: nat)
    requires |t| <= |s| && i == |s| - |t| && t == s[i..] && AllWhitespace(s[..i])
    requires |r| <= |t| && r == t[..|r|] && AllWhitespace(t[|r|..])
    ensures i + |r| <= |s| && r == s[i..i + |r|] && AllWhitespace(s[..i]) && AllWhitespace(s[i + |r|..])
  {
    assert s[i..][..|r|] == s[i..i + |r|];
    assert s[i..][|r|..] == s[i + |r|..];
  }

  /** ASCII case folding, the only part of `toLowerCase` that can matter to an ASCII name. */
  function LowerChar(c: char): char {
    if 'A' <= c <= 'Z' then (c as int + 32) as char else c
  }

  /** `s.toLowerCase()` on the ASCII letters; the length never changes. */
  function Lower(s: string): (r: string)
    ensures |r| == |s|
  {
    if s == [] then [] else [LowerChar(s[0])] + Lower(s[1..])
  }

  predicate StartsWith(s: string, p: string) {
    |p| <= |s| && s[..|p|] == p
  }

  predicate EndsWith(s: string, p: string) {
    |p| <= |s| && s[|s| - |p|..] == p
  }

  /** `s.includes(p)`. */
  predicate Contains(s: string, p: string) {
    StartsWith(s, p) || (s != [] && Contains(s[1..], p))
  }

  /** Decimal rendering of a natural number, as a template literal prints it. */
  function NatToString(n: nat): (r: string)
    ensures |r| >= 1
  {
    var d := ['0', '1', '2', '3', '4', '5', '6', '7', '8', '9'][n % 10];
    if n < 10 then [d] else NatToString(n / 10) + [d]
  }
}

=== FILE: watcher.dfy ===
/**
 * The change watcher: file events go into a deduplicating pending set; every timer tick, when
 * no batch is running, the set is taken and cleared, filtered by path components, and each
 * surviving path is summarized in turn. `summarizeFile` is an oracle here: for each path it
 * resolves with its `changed` flag, or rejects.
 */
module Watcher {
  import opened Js
  import Text

  /** Directory names whose contents are never summarized. */
  const IgnoredParts: seq<string> := ["node_modules", "dist", "build", "vendor", ".git", "cache", "logs"]

  /** The test `processQueue` applies to one component of a path. */
  predicate SkipPart(part: string, rel: string) {
    part in IgnoredParts || Text.StartsWith(part, ".") || Text.Contains(rel, "__doc__doc__")
  }

  /**
   * A path is kept unless some `/`-separated component of it fails the test: in particular a
   * path holding `__doc__doc__` anywhere, or one whose first component is a dot-name, is dropped.
   */
  predicate Keep(rel: string)
    ensures Text.Contains(rel, "__doc__doc__") ==> !Keep(rel)
    ensures rel != [] && rel[0] == '.' ==> !Keep(rel)
  {
    var parts := Text.Split(rel, '/');
    assert parts[0] in parts;
    assert rel != [] && rel[0] == '.' ==> parts[0][..1] == "." by {
      if rel != [] && rel[0] == '.' { Text.SplitFirst(rel, '/'); }
    }
    !exists part :: part in parts && SkipPart(part, rel)
  }

  /** The filter's three reasons, stated apart: an ignored directory, a dot-name, or the doubled `__doc__`. */
  lemma KeepIff(rel: string)
    ensures !Keep(rel) <==>
              (exists part :: part in Text.Split(rel, '/') && (part in IgnoredParts || Text.StartsWith(part, ".")))
              || Text.Contains(rel, "__doc__doc__")
  {
    var parts := Text.Split(rel, '/');
    assert parts[0] in parts;
  }

  /** `files.filter(...)`: the kept paths, in their original order. */
  function KeepPaths(files: seq<string>): (r: seq<string>)
    ensures |r| <= |files|
    ensures forall x :: x in r <==> x in files && Keep(x)
    ensures |files| == 1 ==> r == (if Keep(files[0]) then files else [])
  {
    if files == [] then []
    else
      var init := KeepPaths(files[..|files| - 1]);
      var last := files[|files| - 1];
      assert forall x :: x in files <==> x in files[..|files| - 1] || x == last;
      init + (if Keep(last) then [last] else [])
  }

  /** The filter keeps order: filtering two runs of paths is filtering each, in order. */
  lemma {:induction false} KeepPathsAppend(a: seq<string>, b: seq<string>)
    ensures KeepPaths(a + b) == KeepPaths(a) + KeepPaths(b)
    decreases |b|
  {
    if b == [] {
      assert a + b == a;
    } else {
      var init, last := b[..|b| - 1], b[|b| - 1];
      var tail := if Keep(last) then [last] else [];
      assert (a + b)[..|a + b| - 1] == a + init && (a + b)[|a + b| - 1] == last;
      assert KeepPaths(a + b) == KeepPaths(a + init) + tail;
      assert KeepPaths(b) == KeepPaths(init) + tail;
      KeepPathsAppend(a, init);
      assert KeepPaths(a + b) == KeepPaths(a) + (KeepPaths(init) + tail);
    }
  }

  predicate NoDuplicates(s: seq<string>) {
    forall i, j :: 0 <= i < j < |s| ==> s[i] != s[j]
  }

  /** Filtering a list without repeats gives a list without repeats. */
  lemma {:induction false} KeepPathsNoDuplicates(files: seq<string>)
    requires NoDuplicates(files)
    ensures NoDuplicates(KeepPaths(files))
    decreases |files|
  {
    if files != [] {
      var init := files[..|files| - 1];
      var last := files[|files| - 1];
      KeepPathsNoDuplicates(init);
      assert last !in init;
      assert last !in KeepPaths(init);
    }
  }

  /** `pending.add(path)` on an insertion-ordered set. */
  function Insert(pending: seq<string>, path: string): (r: seq<string>)
    ensures NoDuplicates(pending) ==> NoDuplicates(r)
    ensures forall x :: x in r <==> x in pending || x == path
    ensures path in pending ==> r == pending
    ensures path !in pending ==> r == pending + [path]
  {
    if path in pending then pending else pending + [path]
  }

  /** Adding each of `paths` in turn. */
  function InsertAll(pending: seq<string>, paths: seq<string>): (r: seq<string>)
    ensures NoDuplicates(pending) ==> NoDuplicates(r)
    ensures forall x :: x in r <==> x in pending || x in paths
    decreases |paths|
  {
    if paths == [] then pending
    else
      var r := InsertAll(Insert(pending, paths[0]), paths[1..]);
      assert forall x :: x in paths <==> x == paths[0] || x in paths[1..];
      r
  }

  /** A path reported twice before a tick is pending once, just as if it had been reported once. */
  lemma ReportedTwiceIsPendingOnce(pending: seq<string>, path: string)
    requires NoDuplicates(pending)
    ensures Insert(Insert(pending, path), path) == Insert(pending, path)
    ensures |set i | 0 <= i < |Insert(pending, path)| && Insert(pending, path)[i] == path| == 1
  {
    OccursOnce(Insert(pending, path), path);
  }

  /** The result of the summarizing loop so far: the paths handed to `summarizeFile`, how many changed, and whether one rejected. */
  datatype Run = Run(calls: seq<string>, updated: nat, rejected: bool)

  /** How many of `calls` `summarizeFile` resolved with `changed` set, counted from the front. */
  function ChangedCount(calls: seq<string>, summarize: string -> Option<bool>): nat {
    if calls == [] then 0
    else (if summarize(calls[0]) == Some(true) then 1 else 0) + ChangedCount(calls[1..], summarize)
  }

  lemma {:induction false} ChangedCountSnoc(calls: seq<string>, f: string, summarize: string -> Option<bool>)
    ensures ChangedCount(calls + [f], summarize)
              == ChangedCount(calls, summarize) + (if summarize(f) == Some(true) then 1 else 0)
    decreases |calls|
  {
    if calls == [] {
      assert calls + [f] == [f] && [f][1..] == [];
    } else {
      assert (calls + [f])[1..] == calls[1..] + [f];
      ChangedCountSnoc(calls[1..], f, summarize);
    }
  }

  /**
   * The `for` loop over the kept paths: each is summarized once, in order; `updated` counts
   * those reported as changed; a rejection ends the loop at that path.
   */
  function RunBatch(files: seq<string>, summarize: string -> Option<bool>): (r: Run)
    ensures r.updated == ChangedCount(r.calls, summarize)
    ensures r.updated <= |r.calls| <= |files|
    ensures r.calls == files[..|r.calls|]
    ensures !r.rejected ==> r.calls == files
    ensures !r.rejected ==> forall k :: 0 <= k < |files| ==> summarize(files[k]).Some?
    ensures r.rejected ==> |r.calls| > 0 && summarize(r.calls[|r.calls| - 1]).None?
                           && forall k :: 0 <= k < |r.calls| - 1 ==> summarize(r.calls[k]).Some?
  {
    if files == [] then Run([], 0, false)
    else
      var init := files[..|files| - 1];
      var f := files[|files| - 1];
      var prev := RunBatch(init, summarize);
      assert files[..|prev.calls|] == init[..|prev.calls|];
      if prev.rejected then prev
      else
        ChangedCountSnoc(prev.calls, f, summarize);
        match summarize(f)
        case None => Run(prev.calls + [f], prev.updated, true)
        case Some(changed) => Run(prev.calls + [f], prev.updated + (if changed then 1 else 0), false)
  }

  /** The counts the batch message reports; `skipped` appears only when it is positive. */
  datatype Report = Report(checked: nat, updated: nat, skipped: Option<nat>)

  /** What one tick does: nothing, a completed batch, or a batch ended by a rejection at `path`. */
  datatype Tick = Idle | Completed(report: Report) | Rejected(path: string)

  /** The outcome of a batch over the snapshot `files`. */
  function BatchOutcome(files: seq<string>, summarize: string -> Option<bool>): (t: Tick)
    ensures !t.Idle?
    ensures t.Completed? <==> forall x :: x in KeepPaths(files) ==> summarize(x).Some?
    ensures t.Rejected? ==> t.path in KeepPaths(files) && summarize(t.path).None?
    ensures t.Completed? ==> t.report.checked == |KeepPaths(files)|
                             && t.report.updated == ChangedCount(KeepPaths(files), summarize)
    ensures t.Completed? ==> t.report.updated <= t.report.checked <= |files|
    ensures t.Completed? ==> t.report.checked + (if t.report.skipped.Some? then t.report.skipped.value else 0) == |files|
    ensures t.Completed? && t.report.skipped.Some? ==> t.report.skipped.value > 0
  {
    var kept := KeepPaths(files);
    var run := RunBatch(kept, summarize);
    if run.rejected then Rejected(run.calls[|run.calls| - 1])
    else Completed(Report(|kept|, run.updated,
                          if |files| > |kept| then Some(|files| - |kept|) else None))
  }

  /**
   * The loop itself: summarize the kept paths in order, counting the changed ones, and stop
   * at the first rejection.
   */
  method SummarizeAll(filtered: seq<string>, summarize: string -> Option<bool>) returns (run: Run)
    ensures run == RunBatch(filtered, summarize)
  {
    var calls := [];
    var updated := 0;
    var i := 0;
    while i < |filtered|
      invariant 0 <= i <= |filtered|
      invariant RunBatch(filtered[..i], summarize) == Run(calls, updated, false)
    {
      var f := filtered[i];
      assert filtered[..i + 1][..i] == filtered[..i];
      calls := calls + [f];
      var r := summarize(f);
      if r.None? {
        RunBatchStops(filtered, i + 1, summarize);
        return Run(calls, updated, true);
      }
      if r.value {
        updated := updated + 1;
      }
      i := i + 1;
    }
    assert filtered[..i] == filtered;
    return Run(calls, updated, false);
  }

  /** The watcher's module-level state: the pending set and the `busy` flag. */
  class ChangeWatcher {
    var pending: seq<string>
    var busy: bool

    ghost predicate Valid()
      reads this
    {
      NoDuplicates(pending)
    }

    constructor ()
      ensures Valid() && pending == [] && !busy
    {
      pending := [];
      busy := false;
    }

    /** A `change`, `add` or `unlink` event for `path`. */
    method Notify(path: string)
      requires Valid()
      modifies this
      ensures Valid()
      ensures pending == Insert(old(pending), path) && busy == old(busy)
    {
      if path !in pending {
        pending := pending + [path];
      }
    }

    /**
     * `processQueue`, one timer tick. A busy watcher or an empty set means nothing happens.
     * Otherwise the set is taken and cleared before anything is summarized; `during` are the
     * paths reported while the batch awaits `summarizeFile`, and they stay pending for the
     * next tick. `busy` holds for the whole batch; it is cleared when the batch completes and
     * stays set when a call rejects, since the rejection escapes before the last line.
     */
    method ProcessQueue(summarize: string -> Option<bool>, during: seq<string>)
      returns (tick: Tick, calls: seq<string>)
      requires Valid()
      modifies this
      ensures Valid()
      ensures old(busy) || old(pending) == [] ==>
                tick == Idle && calls == [] && pending == old(pending) && busy == old(busy)
      ensures !old(busy) && old(pending) != [] ==>
                && tick == BatchOutcome(old(pending), summarize)
                && calls == RunBatch(KeepPaths(old(pending)), summarize).calls
                && pending == InsertAll([], during)
                && busy == tick.Rejected?
    {
      if busy || |pending| == 0 {
        return Idle, [];
      }
      busy := true;
      var files := pending;
      pending := [];

      var filtered := KeepPaths(files);
      var run := SummarizeAll(filtered, summarize);
      calls := run.calls;
      pending := InsertAll(pending, during);
      if run.rejected {
        return Rejected(calls[|calls| - 1]), calls;
      }
      tick := Completed(Report(|filtered|, run.updated,
                               if |files| > |filtered| then Some(|files| - |filtered|) else None));
      busy := false;
    }
  }

  lemma RunBatchRejectedSnoc(files: seq<string>, f: string, summarize: string -> Option<bool>)
    requires RunBatch(files, summarize).rejected
    ensures RunBatch(files + [f], summarize) == RunBatch(files, summarize)
  {
    assert (files + [f])[..|files|] == files;
  }

  /** Once a prefix of the batch has rejected, the rest of the batch is never run. */
  lemma {:induction false} RunBatchStops(files: seq<string>, n: nat, summarize: string -> Option<bool>)
    requires n <= |files| && RunBatch(files[..n], summarize).rejected
    ensures RunBatch(files, summarize) == RunBatch(files[..n], summarize)
    decreases |files| - n
  {
    if n < |files| {
      assert files[..n + 1] == files[..n] + [files[n]];
      RunBatchRejectedSnoc(files[..n], files[n], summarize);
      RunBatchStops(files, n + 1, summarize);
    } else {
      assert files[..n] == files;
    }
  }

  lemma OccursOnce(s: seq<string>, x: string)
    requires NoDuplicates(s) && x in s
    ensures |set k | 0 <= k < |s| && s[k] == x| == 1
  {
    var k :| 0 <= k < |s| && s[k] == x;
    var positions := set j | 0 <= j < |s| && s[j] == x;
    assert positions == {k};
  }

  /** In a batch, every kept path of the snapshot is summarized exactly once. */
  lemma SummarizedOnce(files: seq<string>, summarize: string -> Option<bool>, x: string)
    requires NoDuplicates(files) && x in files && Keep(x)
    requires !RunBatch(KeepPaths(files), summarize).rejected
    ensures |set k | 0 <= k < |RunBatch(KeepPaths(files), summarize).calls|
                     && RunBatch(KeepPaths(files), summarize).calls[k] == x| == 1
  {
    var calls := RunBatch(KeepPaths(files), summarize).calls;
    KeepPathsNoDuplicates(files);
    assert calls == KeepPaths(files);
    assert NoDuplicates(calls);
    OccursOnce(calls, x);
  }
}
